=== FILE: README.md ===
# LazyRunner manager, modelled in Dafny

LazyRunner runs named computation modules and memoises what they produce. The
`Manager` class derives a cache key for each module and keeps results in two
tiers: memory, and optionally a disk cache directory. It runs a module only when
its results are not cached, and it hands results to each module's
`reportResults` callback once per (name, key). It also keeps a pool of shared
"common objects".

The model has eight modules:

- `Wrappers`: Option and Result.
- `Errors`: the failures the source raises.
- `Objects`: result trees, and the wrapper tree a non-tree result is stored in on disk.
- `Names`: ASCII lower-casing, and de-duplication in first-occurrence order.
- `Keys`:
  - the module registry and the dependency-set closure;
  - the key `(name, local hash, dependency hash)`;
  - key overrides, the printed key and the cache-file path.
- `Cache`: the two-tier cache as pure functions of its state. This covers lookup, load, save with single-slot eviction of results, and its invariant.
- `CommonPool`: the common-object pool as pure functions.
- `Coordinator`: the class `Manager`. Its fields are updated in place by methods that are proved against the pure functions above.

How the key works:

- The registry maps each module name to three dependency sets: parameter, result and module.
- The dependency walk follows result and module edges, skipping direct self-edges.
- A ghost rank that decreases along those edges stands in for the acyclicity the source assumes without checking.
- The local hash of a name comes from the configuration, passed in as a function.
- The dependency hash is a hash of the mapping from each dependency (the module excluded) to its local hash, also passed in as a function.

Other modelling choices:

- The disk layer is a map from cache-file path to the tree stored there.
- A module's `run()` and its `reportResults` are code outside this model. The manager receives both as functions; the report's outcome says whether the callback returned or raised.
- The ghost logs `runLog` and `reportLog` record every call of these two functions. This lets the contracts state "a hit does not run" and "report at most once".
- The ghost log `loadLog` records every results load on a cache hit, with its key and the loaded value. Together with `runLog` it says where each value of a list request came from: a run of an instance built for the module's key, or a hit on that key.

## Model

| member | source | states |
|---|---|---|
| `Keys.DepSet` | lazyrunner/manager.py:248-265 | The dependency set of a module contains its own parameter dependencies (the rest is `Keys.DepSetByWalks`). |
| `Keys.DepSetByWalks` | lazyrunner/manager.py:248-265 | x is in the dependency set of n exactly when some walk from n reaches a module whose parameter dependencies hold x. The walk follows result/module edges and never steps from a module to itself. |
| `Keys.DepSetOnlyParameters` | lazyrunner/manager.py:250-258 | Every name in a dependency set is a parameter dependency of some registered module. A result/module dependency is never added for itself. |
| `Keys.DepSetRankIndependent` | lazyrunner/manager.py:248-265 | The dependency set is the same whatever acyclicity rank is used. |
| `Keys.DependencyHashes` | lazyrunner/manager.py:277-282 | The mapping hashed into the dependency hash covers exactly the dependency set without the module itself (so it includes the module's own parameter dependencies), and maps each dependency to its local hash. |
| `Keys.ModuleKeyOf` | lazyrunner/manager.py:246-292 | The key is derived exactly when the module is registered. An unknown name fails with that name. The key carries the module's name and its own local hash. |
| `Keys.KeyDependsOnlyOnDepSet` | lazyrunner/manager.py:267-283 | Configurations that agree on the local hashes of the dependency set (the module excluded) give the same dependency hash. If they also agree on the module itself, they give the same key. |
| `Keys.KeySeesEveryDependency` | lazyrunner/manager.py:277-283 | Assume the mapping hash has no collisions. A different local hash of any dependency other than the module then gives a different dependency hash. |
| `Keys.KeyRankIndependent` | lazyrunner/manager.py:246-292 | The derived key does not depend on the rank used to justify termination. |
| `Keys.ProcessKey` | lazyrunner/manager.py:481-494 | The name is always kept. With no overrides the key is unchanged. Otherwise exactly the overridden components are replaced. |
| `Keys.KeyAsString` | lazyrunner/manager.py:496-506 | The string form under overrides is the printed form of the overridden key. |
| `Keys.KeyStringInjective` | lazyrunner/manager.py:496-506 | If names and local hashes contain no '-', the printed key identifies the key. |
| `Keys.JoinSpec` | lazyrunner/manager.py:512-518 | Path joining as `osp.join` does it: an absolute second part replaces the first; otherwise the result starts with the first part and always ends with the second. |
| `Keys.CacheFileEndsWithFileName` | lazyrunner/manager.py:509-518 | Every cache path ends with the key's file name `local-dep.cache`. |
| `Keys.CacheFileShape` | lazyrunner/manager.py:509-518 | The cache path is the directory joined with the module name, the object class, and `local-dep.cache`, separated by '/'. |
| `Keys.CacheFileInjective` | lazyrunner/manager.py:509-518 | Equal cache paths under one directory mean equal keys and object classes. This assumes names and object classes are path segments and local hashes contain neither '/' nor '-'. |
| `Keys.ResultCachingEnabled` | lazyrunner/manager.py:336-343 | Caching is on unless the module's registered class sets `disable_result_caching`. |
| `Keys.FileNameInjective` | lazyrunner/manager.py:518 | If local hashes contain no '-', the file name `local-dep.cache` gives back both hashes. |
| `Names.Lower` | lazyrunner/manager.py:153 | Lower-casing keeps the length and leaves no upper-case letter. Each ASCII capital becomes its lower-case letter (code + 32), and every other character is kept. |
| `Names.LowerIdempotent` | lazyrunner/manager.py:171 | Lower-casing an already lower-cased name (as `_getResults` does) changes nothing. |
| `Names.LowerAll` | lazyrunner/manager.py:153 | The requested names are lower-cased one by one, in order. |
| `Names.Dedup` | lazyrunner/manager.py:153-155 | The collected names are no more than the requested ones, and each of them was requested. |
| `Names.DedupSpec` | lazyrunner/manager.py:151-155 | The collected names have no duplicates. They contain exactly the requested names, in order of first occurrence. |
| `Objects.Wrap` | lazyrunner/manager.py:425-431 | What is written to disk is always a tree. |
| `Objects.UnwrapAsWritten` | lazyrunner/manager.py:390-395 | The disk-load unwrapping as written: a tree is changed exactly when it has the shape of a wrapper tagged `ValueWrapper`, and a scalar is kept. |
| `Objects.Unwrap` | lazyrunner/manager.py:81-86 | Unwrapping with the tag the save path writes (`__ValueWrapper__`, as line 81 checks): a tree is changed exactly when it has the shape of such a wrapper, and a scalar is kept. |
| `Objects.ScalarRoundTripFailsAsWritten` | lazyrunner/manager.py:390-395 | As written, a non-tree value saved to disk loads back as its wrapper tree, not as itself. |
| `Objects.RoundTrip` | lazyrunner/manager.py:390-395 | With the wrapper name checked consistently, every value loads back as itself, except a tree that already looks like a wrapper. |
| `Cache.InCacheSpec` | lazyrunner/manager.py:345-371 | A resident entry is present. Without a disk cache nothing else is. The disk is consulted only for a cacheable entry. These clauses restate `InCache`'s body case by case, as documentation of it. |
| `Cache.LoadSpec` | lazyrunner/manager.py:373-395 | Memory comes first. Otherwise, with a disk cache, the load returns the cache file's tree unwrapped (with the corrected wrapper tag). With neither, the load fails as not cached. These clauses restate `Load`'s body case by case, as documentation of it. |
| `Cache.AtMostOneResultInMemory` | lazyrunner/manager.py:412-419 | A corollary of the cache invariant: at most one "results" entry is resident, across all modules. |
| `Cache.SavePreservesValid` | lazyrunner/manager.py:397-419 | Every save keeps the cache invariant. |
| `Cache.SaveThenLoad` | lazyrunner/manager.py:404-419 | After a cacheable save, the entry is in memory, `inCache` holds, and the load returns the saved value. |
| `Cache.ResaveEvictsAsWritten` | lazyrunner/manager.py:409-419 | As written, re-saving the key that is the current results slot deletes the entry just inserted. Without a disk cache it is then not cached at all. |
| `Cache.DoubleSaveAsWritten` | lazyrunner/manager.py:185-199 | As written, the two results saves of one miss leave that result out of memory. |
| `Cache.DoubleSaveKeeps` | lazyrunner/manager.py:185-199 | With the corrected save, the two results saves of one miss leave the result loadable. |
| `Cache.SaveAsWrittenAgrees` | lazyrunner/manager.py:409-419 | The as-written and corrected saves agree except when the current results slot is saved again. |
| `Cache.SaveEvictsPreviousResult` | lazyrunner/manager.py:412-419 | A results save under another key deletes the previously recorded results entry and records the new slot. |
| `Cache.SaveKeepsOtherClasses` | lazyrunner/manager.py:409-419 | Entries of other object classes are neither removed nor changed by a save. |
| `Cache.DisabledSaveIsNoOp` | lazyrunner/manager.py:404-405 | If a module disables result caching, saving its results changes nothing. |
| `Cache.DisabledNeverInCache` | lazyrunner/manager.py:336-343 | If a module disables result caching, its results are never in the cache. This holds in memory and on disk. |
| `Cache.NoDiskWriteWhenReadOnly` | lazyrunner/manager.py:422-423 | Without a disk cache, or with a read-only one, a save leaves the disk untouched. |
| `Cache.SaveWritesThrough` | lazyrunner/manager.py:425-433 | A writable disk cache gets the wrapped object at the key's cache file, and nothing else on disk changes. |
| `Cache.InCacheThenLoads` | lazyrunner/manager.py:345-395 | Whatever `inCache` reports present, `loadFromCache` can load. |
| `Cache.EvictionScenario` | lazyrunner/manager.py:412-419 | Save results of A, then of B, with no disk cache: A is no longer cached and B is. |
| `CommonPool.Store` | lazyrunner/manager.py:533-549 | A store keeps every other pool, leaves the named pool present, and on success maps the key to (persistence, returned object). |
| `CommonPool.StoreAsWritten` | lazyrunner/manager.py:535-547 | As written: once the purge loop has visited an entry, the returned object is the last visited entry's. Over an empty pool the given object is returned. |
| `CommonPool.Get` | lazyrunner/manager.py:527-531 | A lookup succeeds exactly when the pool holds the key. Otherwise it fails as "not in pool". |
| `CommonPool.StoreSpec` | lazyrunner/manager.py:533-549 | A store removes every non-persistent entry and keeps every persistent one, then maps the key to (persistence, object). The object is the one given, else the one the creation function makes. With neither, the store fails. At most one non-persistent entry remains. |
| `CommonPool.StoreAsWrittenKeepsLoopObject` | lazyrunner/manager.py:535-547 | As written, the object stored is the one of the last entry the purge loop visited, not the argument. |
| `CommonPool.StoreAsWrittenCounterexample` | lazyrunner/manager.py:535-547 | A concrete pool where the as-written store saves the wrong object and the corrected store saves the given one. |
| `Coordinator.RequestedNames` | lazyrunner/manager.py:138-148 | An explicit list is used as given and a lone name becomes a one-element list. With no name, `run_queue` is used the same way: a lone name gives a one-element list, a list is used as given, and no `run_queue` gives no names. An unsupported type gives no names. |
| `Coordinator.Manager.constructor` | lazyrunner/manager.py:21-41 | A manager starts with empty memory, current-results slot, live modules, reported set and pools, over the existing disk. It requires a `run()` that returns a tree or nothing. |
| `Coordinator.Manager.InCache` | lazyrunner/manager.py:345-371 | The answer is the cache-lookup function applied to the overridden key. |
| `Coordinator.Manager.LoadFromCache` | lazyrunner/manager.py:373-395 | The result is the load function applied to the overridden key: the memory copy, else the disk tree unwrapped with the corrected wrapper tag (`__ValueWrapper__`), else a failure. |
| `Coordinator.Manager.SaveToCache` | lazyrunner/manager.py:397-441 | The new cache state is the corrected save applied to the old state, and the cache invariant is kept. |
| `Coordinator.Manager.ReportResults` | lazyrunner/manager.py:294-331 | A pair already reported returns at once with no call. Otherwise the callback is called once, and the pair is recorded exactly when it returned. A successful report is never repeated. |
| `Coordinator.Manager.LoadAndReport` | lazyrunner/manager.py:179-181 | A hit loads the cached results, records the load, and reports them. Success means the pair is reported, and the value returned is the one loaded. |
| `Coordinator.Manager.Run` | lazyrunner/manager.py:189-196 | One call of the module's `run()` is recorded. The result is its output, or the empty tree when it returned nothing, and it is a tree, so the freeze at line 196 applies. |
| `Coordinator.Manager.StoreAndReport` | lazyrunner/manager.py:197-199 | The miss result is saved (and then resident, if cacheable) and reported. Success means the pair is reported. |
| `Coordinator.Manager.ResultsForKey` | lazyrunner/manager.py:168-201 | On a hit: no run, cache unchanged, and the loaded result is returned. On a miss: exactly one run, of an instance with this key (the given instance if there is one), whose output is the result and is resident afterwards. With caching disabled it always runs. Success means the pair is reported. |
| `Coordinator.Manager.RunAndReport` | lazyrunner/manager.py:183-201 | A miss makes exactly one run, of an instance with this key (the given instance if there is one). Its output is the result and is resident afterwards if cacheable. Nothing is loaded, and success means the pair is reported. |
| `Coordinator.Manager.ModuleForKey` | lazyrunner/manager.py:210-244 | The live instance is reused exactly when its stored key equals the key, otherwise a fresh one is made. The live entry becomes (key, instance), other modules are untouched, and the instance receives its results. |
| `Coordinator.Manager.RunInstalled` | lazyrunner/manager.py:234-244 | The installed instance gets its results (cached value on a hit with no run; on a miss the output of one run made by that instance) and holds them as its `localResults`. Other live modules are untouched and no instance is created. |
| `Coordinator.Manager.Install` | lazyrunner/manager.py:219-233 | The instance is the current one if and only if its stored key matches. The module's live entry becomes (key, instance). |
| `Coordinator.Manager.GiveLocalResults` | lazyrunner/manager.py:237-238 | The live instance gets the results as its local results; nothing else changes. |
| `Coordinator.Manager.ResultsFor` | lazyrunner/manager.py:168-201 | The key of the lower-cased name is derived; an unknown module fails with that name, and nothing is run, loaded or cached. On a hit, nothing runs, the cache is unchanged, and the value is the one the cache held. On a miss, nothing is loaded, exactly one instance with that key runs, and its output is the value, resident afterwards if cacheable. With caching disabled the module runs on every call. Success means the pair is reported. The disk only gains files. |
| `Coordinator.Manager.GetResults` | lazyrunner/manager.py:126-166 | An unsupported name type fails with a type error and nothing runs or loads. One name: exactly the `ResultsFor` outcome (unknown module, hit value, run output, run on every call when caching is disabled). A list (default `run_queue`): the lower-cased, de-duplicated names in first-occurrence order. Each is registered and reported under its key. The returned ghost map `hits` says how each was answered. A hit (only when its caching is on) is a load of that value on its key, and no instance with its key ran in this call. A miss is the output of a run of an instance with its key, and nothing was loaded for that key. Every run and load of the call belongs to a collected name, one per name. A name whose cacheable results file was on disk when the call began is a hit and never runs. A failure names a requested module that is unknown or whose report failed. |
| `Coordinator.Manager.CollectAll` | lazyrunner/manager.py:150-157 | The list loop: the same outcome as the list case of `GetResults`, including the `hits` map and the rule that a name whose results file was on disk at the start is a hit with no run of its key. It is proved by the loop invariant `Collecting` over the prefix of names seen so far, which also keeps the disk growing. |
| `Coordinator.Manager.CollectStep` | lazyrunner/manager.py:153-155 | One iteration: a name already collected is skipped. A new one is appended to the order and answered, every earlier answer stays answered, and the count of runs and loads grows by one. The new name is recorded as a hit exactly when its results were cached when the loop reached it. A failure names the module. |
| `Coordinator.Manager.CollectOne` | lazyrunner/manager.py:155 | One `_getResults` call of a list: at most one run or load, both of the name's key. If the name's results were cached when the call began, nothing runs and one load happens. Otherwise nothing is loaded and one instance runs. On success the name is registered and reported, and the value came from that hit or run. The disk only gains files. |
| `Coordinator.Manager.CollectingExtend` | lazyrunner/manager.py:150-157 | The loop invariant moves from one name to the next when a new name is answered by one run or one hit of its own key: the order grows by the name, every answer stays served, the count still matches, and a name whose file was on disk at the start is still a hit. |
| `Coordinator.Manager.AnsweredExtend` | lazyrunner/manager.py:153-155 | Adding a served, reported name whose runs and hits all carry its own key keeps every earlier answer served, hits and misses alike. Every run and load still belongs to a collected name. |
| `Coordinator.Manager.GetModule` | lazyrunner/manager.py:203-244 | The live instance of the lower-cased module under its derived key; an unknown module fails with that name. The instance is reused exactly when its stored key matches, and on success its results are reported and held as its `localResults`. On a hit those are the cached value with no run. On a miss they are the output of the one run, made by that very instance. |
| `Coordinator.Manager.InCommonObjectCache` | lazyrunner/manager.py:520-525 | Presence in the pool. A missing pool name means absent. |
| `Coordinator.Manager.GetCommonObject` | lazyrunner/manager.py:527-531 | The pooled object, or "not in pool" where the source's assertion fails. |
| `Coordinator.Manager.SaveToCommonObjectCache` | lazyrunner/manager.py:533-549 | The loop that purges non-persistent entries gives the state of the pool store function. The at-most-one-transient invariant is kept. |

## Left out

- Logging and the set of dependency log lines already written (lazyrunner/manager.py:261-263, 273-275): they only deduplicate log output.
- Disk I/O:
  - the serialisation behind `loadResults`/`saveResults`;
  - `os.makedirs` in `cacheFile`, and `osp.expanduser` of the cache directory;
  - the removal of a half-written file after a failed save.
  The disk is a map that a save always updates.
- Failed loads: a load from a missing file, or with no disk cache, is the error `NotCached` rather than an assertion failure or an I/O exception.
- Configuration handling is reduced to two things: a local-hash function and the `run_queue` value. This covers `attach`, `copy`, `freeze`, `getPreprocessedBranch` and TreeDict hashing. The sorted insertion order of the dependency tree is abstracted by hashing a map.
- Run failures: exceptions raised by a module's `run()` are not modelled. The `reportResults` callback either returns or raises (a raise is a failed report), and its signature probing through `inspect` is left out.
- `Keys.ModuleKeyOf` requires an acyclic registry whose walked dependencies are all registered. The source does not check this: it recurses without end on a cycle, and fails on an unknown dependency. Dependency sets that depend on the parameters are modelled as fixed per module.
- `Keys.ResultCachingEnabled` treats an unregistered name as caching. The source would fail to look up its class.
- `Names.Lower` lower-cases ASCII letters only. This matches `str.lower()` on the byte-string names the source accepts (lines 161 and 170 reject any other name type), so nothing is lost for a name that can succeed.
- `_loadFromCache`, `_saveToCache`, `run`, `_buildPNodeTree` and the database helpers (`dbTable`, `dbSession`, `DBWrapper`) are not part of this model. They are stubs, are incomplete, or wrap a foreign library.
- `Coordinator.Manager.GetResults`: the result tree is not frozen.
- Callbacks into the manager: module code (the module constructor, `run()`, `reportResults`) is modelled as pure functions of their arguments, so it cannot call back into the manager. The source hands the manager to every module it builds (lazyrunner/manager.py:229), and a `run()` may call `getResults` or the common-object pool itself. Under this assumption the run and load counts of `ResultsForKey`, `RunAndReport`, `CollectOne`, `CollectAll` and `GetResults` count only the request's own calls. Nested runs, loads and saves made from inside a `run()` are not modelled.
- `Coordinator.Manager.Run`: requires, through the constructor and `Valid`, that `run()` returns a tree or nothing. In the source a non-tree output fails with an `AttributeError` at the freeze (line 196), before the save and the report. The model leaves that exception out.
- `Coordinator.Manager.ModuleForKey`: the instance is a value, so the source's in-place `m.local_results = r` on a shared object is modelled by storing the updated instance back. Other references to the same object are not tracked.
- `Coordinator.Manager.ModuleForKey`: `calling_from_getresults` only chooses whether the caller receives `(m, r)` or `m`, so the method always returns the pair.
- Set requests: a set of names is iterated in an unspecified order in the source; the model takes a sequence.
- `inCache` in the source has its body at class level (lazyrunner/manager.py:351-371). It is modelled as the method body that is evidently meant.
- The fields the source never initialises (`current_modules`, `reported_results`, `current_result_keys`, `common_objects`) start empty.
- A module that disables result caching is still reported only once per (name, key): `__reportResults` checks `reported_results` whatever the flag.
- `Coordinator.Manager.LoadFromCache`: unwraps a disk tree with the corrected tag `__ValueWrapper__`, not line 392's `ValueWrapper`. `Objects.UnwrapAsWritten` is the as-written check, and `Objects.ScalarRoundTripFailsAsWritten` shows what it does to a saved scalar.
- `Cache.Save` and `Cache.SaveAsWritten` have no row of their own: their contracts are the cache lemmas above (`SaveThenLoad`, `SaveEvictsPreviousResult`, `SaveKeepsOtherClasses`, `SaveAsWrittenAgrees` and the rest).

## Findings

| source | as written | input that shows it | evidently intended | confidence | as-written member | corrected member |
|---|---|---|---|---|---|---|
| lazyrunner/manager.py:409-419 | `saveToCache` inserts the results entry and then deletes the slot recorded by the previous results save, which is that same entry when the same key is saved again. Every miss reached from `getResults` saves twice (inside `_getModule` and again in `_getResults`), so the result never stays in memory. | Any cacheable module with no disk cache: `getResults` runs it, and a second `getResults` runs it again. | Delete the previous results entry only when it is a different slot. | high; not executed | `Cache.ResaveEvictsAsWritten`, `Cache.DoubleSaveAsWritten` | `Cache.SaveThenLoad`, `Cache.DoubleSaveKeeps`, `Coordinator.Manager.SaveToCache` |
| lazyrunner/manager.py:392 | `loadFromCache` unwraps trees named `ValueWrapper`, but `saveToCache` wraps non-tree values in a tree named `__ValueWrapper__` (line 428). | Save the integer 1 with a disk cache, then load it from disk: the wrapper tree comes back. | Check the same name `__ValueWrapper__` that line 81 also uses. | high; not executed | `Objects.ScalarRoundTripFailsAsWritten` | `Objects.RoundTrip`, `Cache.LoadSpec`, `Cache.Load`, `Coordinator.Manager.LoadFromCache` |
| lazyrunner/manager.py:538 | The purge loop binds each entry's object to `obj`, overwriting the argument. The object stored and returned is then the last visited entry's object. | Pool "db" holds {"a": (persistent, 1)}; store key "b" with object 2: "b" maps to 1. | Keep the argument; use another name in the loop. | high; not executed | `CommonPool.StoreAsWrittenCounterexample` | `CommonPool.StoreSpec`, `Coordinator.Manager.SaveToCommonObjectCache` |

=== FILE: cache.dfy ===
/**
 * The two-tier result cache as functions of its state: the memory layer (keyed by
 * key and object class), the single "current results" slot used for eviction, and
 * the disk layer (cache-file path to the tree persisted there).
 */
module Cache {
  import opened Wrappers
  import opened Errors
  import opened Objects
  import opened Keys

  /** The cache directory (None: no disk cache at all) and the read-only flag. */
  datatype Settings = Settings(cacheDirectory: Option<string>, readOnly: bool)
  {
    predicate UseDisk() { cacheDirectory.Some? }
  }

  /** The identity of a memory entry: a key and an object class. */
  datatype Slot = Slot(key: ModuleKey, objName: string)

  /** The object class of module results, the only class subject to eviction. */
  const Results: string := "results"

  datatype CacheState = CacheState(
    memory: map<Slot, Obj>,
    currentResultKeys: map<string, Slot>,
    disk: map<string, Obj>)

  function PathOf(s: Settings, key: ModuleKey, objName: string): string
    requires s.UseDisk()
  {
    CacheFile(s.cacheDirectory.value, key, objName)
  }

  /** Whether saving and disk lookup apply at all: not for the results of a module that disables caching. */
  predicate Cacheable(reg: Registry, key: ModuleKey, objName: string)
  {
    !(objName == Results && !ResultCachingEnabled(reg, key.name))
  }

  /** Present in memory, or (with a disk cache, and cacheable) its cache file exists. */
  predicate InCache(s: Settings, reg: Registry, st: CacheState, key: ModuleKey, objName: string)
  {
    || Slot(key, objName) in st.memory
    || (s.UseDisk() && Cacheable(reg, key, objName) && PathOf(s, key, objName) in st.disk)
  }

  /**
   * The memory copy if there is one; otherwise the unwrapped tree read from the cache
   * file. Without a disk cache, or with no file, the load fails.
   */
  function Load(s: Settings, st: CacheState, key: ModuleKey, objName: string): Result<Obj, Error>
  {
    if Slot(key, objName) in st.memory then Ok(st.memory[Slot(key, objName)])
    else if !s.UseDisk() || PathOf(s, key, objName) !in st.disk then Err(NotCached)
    else Ok(Unwrap(st.disk[PathOf(s, key, objName)]))
  }

  /** The disk after a save: the wrapped object written to its cache file, unless disk is off or read-only. */
  function DiskAfterSave(s: Settings, disk: map<string, Obj>, key: ModuleKey, objName: string, v: Obj): map<string, Obj>
  {
    if !s.UseDisk() || s.readOnly then disk else disk[PathOf(s, key, objName) := Wrap(v)]
  }

  /**
   * saveToCache as written: the object is put in memory, then for results the entry the
   * previous results save recorded is deleted, which is the entry just written when the
   * same results key is saved twice in a row.
   */
  function SaveAsWritten(s: Settings, reg: Registry, st: CacheState, key: ModuleKey, objName: string, v: Obj): CacheState
  {
    if !Cacheable(reg, key, objName) then st
    else
      var slot := Slot(key, objName);
      var memory := st.memory[slot := v];
      var memory := if objName == Results && Results in st.currentResultKeys
                    then memory - {st.currentResultKeys[Results]} else memory;
      var current := if objName == Results then st.currentResultKeys[Results := slot] else st.currentResultKeys;
      CacheState(memory, current, DiskAfterSave(s, st.disk, key, objName, v))
  }

  /**
   * saveToCache with the eviction it is meant to have: the previous results entry is
   * deleted only when it is not the one being saved.
   */
  function Save(s: Settings, reg: Registry, st: CacheState, key: ModuleKey, objName: string, v: Obj): CacheState
  {
    if !Cacheable(reg, key, objName) then st
    else
      var slot := Slot(key, objName);
      var memory := st.memory[slot := v];
      var memory := if objName == Results && Results in st.currentResultKeys && st.currentResultKeys[Results] != slot
                    then memory - {st.currentResultKeys[Results]} else memory;
      var current := if objName == Results then st.currentResultKeys[Results := slot] else st.currentResultKeys;
      CacheState(memory, current, DiskAfterSave(s, st.disk, key, objName, v))
  }

  /**
   * The cache invariant: the only results entry in memory is the one the last results
   * save recorded, and no module that disables result caching has one.
   */
  ghost predicate Valid(reg: Registry, st: CacheState)
  {
    && st.currentResultKeys.Keys <= {Results}
    && (Results in st.currentResultKeys ==> st.currentResultKeys[Results].objName == Results)
    && (forall slot :: slot in st.memory && slot.objName == Results ==>
          Results in st.currentResultKeys && st.currentResultKeys[Results] == slot)
    && (forall slot :: slot in st.memory && slot.objName == Results ==> ResultCachingEnabled(reg, slot.key.name))
  }

  /** Under the invariant at most one results entry is resident, across all modules. */
  lemma AtMostOneResultInMemory(reg: Registry, st: CacheState, a: Slot, b: Slot)
    requires Valid(reg, st)
    requires a in st.memory && b in st.memory && a.objName == Results && b.objName == Results
    ensures a == b
  {
  }

  /** Saving keeps the invariant. */
  lemma SavePreservesValid(s: Settings, reg: Registry, st: CacheState, key: ModuleKey, objName: string, v: Obj)
    requires Valid(reg, st)
    ensures Valid(reg, Save(s, reg, st, key, objName, v))
  {
  }

  /** Store then contains: after a cacheable save the object is in the cache and loads from memory. */
  lemma SaveThenLoad(s: Settings, reg: Registry, st: CacheState, key: ModuleKey, objName: string, v: Obj)
    requires Cacheable(reg, key, objName)
    ensures Slot(key, objName) in Save(s, reg, st, key, objName, v).memory
    ensures InCache(s, reg, Save(s, reg, st, key, objName, v), key, objName)
    ensures Load(s, Save(s, reg, st, key, objName, v), key, objName) == Ok(v)
  {
  }

  /**
   * As written, saving the same results key twice in a row leaves it out of memory:
   * the delete removes the entry the insert just made, and without a disk cache the
   * result is then not in the cache at all.
   */
  lemma ResaveEvictsAsWritten(s: Settings, reg: Registry, st: CacheState, key: ModuleKey, v: Obj)
    requires Cacheable(reg, key, Results)
    requires Results in st.currentResultKeys && st.currentResultKeys[Results] == Slot(key, Results)
    ensures Slot(key, Results) !in SaveAsWritten(s, reg, st, key, Results, v).memory
    ensures !s.UseDisk() ==> !InCache(s, reg, SaveAsWritten(s, reg, st, key, Results, v), key, Results)
  {
  }

  /**
   * Every miss reached from getResults saves the same results twice (once inside
   * _getModule, once after it). As written the second save deletes the entry, so a
   * result never stays in memory; with the corrected save it does.
   */
  lemma DoubleSaveAsWritten(s: Settings, reg: Registry, st: CacheState, key: ModuleKey, v: Obj)
    requires Cacheable(reg, key, Results)
    ensures Slot(key, Results) !in SaveAsWritten(s, reg, SaveAsWritten(s, reg, st, key, Results, v), key, Results, v).memory
  {
    ResaveEvictsAsWritten(s, reg, SaveAsWritten(s, reg, st, key, Results, v), key, v);
  }

  /** With the corrected save the same double save leaves the result loadable from memory. */
  lemma DoubleSaveKeeps(s: Settings, reg: Registry, st: CacheState, key: ModuleKey, v: Obj)
    requires Cacheable(reg, key, Results)
    ensures Load(s, Save(s, reg, Save(s, reg, st, key, Results, v), key, Results, v), key, Results) == Ok(v)
  {
    SaveThenLoad(s, reg, Save(s, reg, st, key, Results, v), key, Results, v);
  }

  /** The as-written save and the corrected one differ only when the same results key is saved again. */
  lemma SaveAsWrittenAgrees(s: Settings, reg: Registry, st: CacheState, key: ModuleKey, objName: string, v: Obj)
    requires !(objName == Results && Results in st.currentResultKeys && st.currentResultKeys[Results] == Slot(key, objName))
    ensures SaveAsWritten(s, reg, st, key, objName, v) == Save(s, reg, st, key, objName, v)
  {
  }

  /**
   * Single-slot eviction: a results save deletes from memory the results entry recorded
   * by the previous results save (whatever module it belongs to) and records the new one.
   */
  lemma SaveEvictsPreviousResult(s: Settings, reg: Registry, st: CacheState, key: ModuleKey, v: Obj)
    requires Cacheable(reg, key, Results)
    requires Results in st.currentResultKeys && st.currentResultKeys[Results] != Slot(key, Results)
    ensures st.currentResultKeys[Results] !in Save(s, reg, st, key, Results, v).memory
    ensures Save(s, reg, st, key, Results, v).currentResultKeys[Results] == Slot(key, Results)
  {
  }

  /** Entries of other object classes are never evicted: a save changes no other non-results entry. */
  lemma SaveKeepsOtherClasses(s: Settings, reg: Registry, st: CacheState, key: ModuleKey, objName: string, v: Obj, other: Slot)
    requires Valid(reg, st)
    requires other.objName != Results && other != Slot(key, objName)
    ensures other in Save(s, reg, st, key, objName, v).memory <==> other in st.memory
    ensures other in st.memory ==> Save(s, reg, st, key, objName, v).memory[other] == st.memory[other]
  {
  }

  /** With result caching disabled for the module, saving its results changes nothing. */
  lemma DisabledSaveIsNoOp(s: Settings, reg: Registry, st: CacheState, key: ModuleKey, v: Obj)
    requires !ResultCachingEnabled(reg, key.name)
    ensures Save(s, reg, st, key, Results, v) == st
  {
  }

  /** With result caching disabled for the module, its results are never in the cache. */
  lemma DisabledNeverInCache(s: Settings, reg: Registry, st: CacheState, key: ModuleKey)
    requires Valid(reg, st) && !ResultCachingEnabled(reg, key.name)
    ensures !InCache(s, reg, st, key, Results)
  {
  }

  /** No disk cache, or a read-only one: a save writes nothing to disk. */
  lemma NoDiskWriteWhenReadOnly(s: Settings, reg: Registry, st: CacheState, key: ModuleKey, objName: string, v: Obj)
    requires !s.UseDisk() || s.readOnly
    ensures Save(s, reg, st, key, objName, v).disk == st.disk
  {
  }

  /** A writable disk cache gets the wrapped object at the key's cache file, and nothing else changes on disk. */
  lemma SaveWritesThrough(s: Settings, reg: Registry, st: CacheState, key: ModuleKey, objName: string, v: Obj)
    requires s.UseDisk() && !s.readOnly && Cacheable(reg, key, objName)
    ensures Save(s, reg, st, key, objName, v).disk == st.disk[PathOf(s, key, objName) := Wrap(v)]
  {
  }

  /**
   * Memory first: a resident entry is returned as it is; otherwise, with a disk cache,
   * the cache file's tree unwrapped; with neither, the load fails as not cached.
   * These clauses restate Load's body case by case, as documentation of its contract.
   */
  lemma LoadSpec(s: Settings, st: CacheState, key: ModuleKey, objName: string)
    ensures Slot(key, objName) in st.memory ==> Load(s, st, key, objName) == Ok(st.memory[Slot(key, objName)])
    ensures Slot(key, objName) !in st.memory && s.UseDisk() && PathOf(s, key, objName) in st.disk ==>
      Load(s, st, key, objName) == Ok(Unwrap(st.disk[PathOf(s, key, objName)]))
    ensures Load(s, st, key, objName).Err? <==>
      Slot(key, objName) !in st.memory && (!s.UseDisk() || PathOf(s, key, objName) !in st.disk)
    ensures Load(s, st, key, objName).Err? ==> Load(s, st, key, objName).error == NotCached
  {
  }

  /**
   * A resident entry is always present; without a disk cache nothing else is; the disk
   * is consulted only for a cacheable entry. These clauses restate InCache's body, as
   * documentation of its contract.
   */
  lemma InCacheSpec(s: Settings, reg: Registry, st: CacheState, key: ModuleKey, objName: string)
    ensures Slot(key, objName) in st.memory ==> InCache(s, reg, st, key, objName)
    ensures !s.UseDisk() ==> (InCache(s, reg, st, key, objName) <==> Slot(key, objName) in st.memory)
    ensures InCache(s, reg, st, key, objName) && Slot(key, objName) !in st.memory ==>
      s.UseDisk() && Cacheable(reg, key, objName) && PathOf(s, key, objName) in st.disk
  {
  }

  /** What the cache reports present, it can load. */
  lemma InCacheThenLoads(s: Settings, reg: Registry, st: CacheState, key: ModuleKey, objName: string)
    requires InCache(s, reg, st, key, objName)
    ensures Load(s, st, key, objName).Ok?
  {
  }

  /**
   * Results of A then results of B, with distinct keys and no disk cache: A's result is
   * no longer in the cache and B's is.
   */
  lemma EvictionScenario(s: Settings, reg: Registry, st: CacheState, a: ModuleKey, b: ModuleKey, va: Obj, vb: Obj)
    requires !s.UseDisk() && Valid(reg, st) && a != b
    requires ResultCachingEnabled(reg, a.name) && ResultCachingEnabled(reg, b.name)
    ensures !InCache(s, reg, Save(s, reg, Save(s, reg, st, a, Results, va), b, Results, vb), a, Results)
    ensures InCache(s, reg, Save(s, reg, Save(s, reg, st, a, Results, va), b, Results, vb), b, Results)
  {
    var st1 := Save(s, reg, st, a, Results, va);
    SaveThenLoad(s, reg, st, a, Results, va);
    assert st1.currentResultKeys[Results] == Slot(a, Results);
    SaveEvictsPreviousResult(s, reg, st1, b, vb);
  }
}

=== FILE: keys.dfy ===
/**
 * Module keys: the dependency set of a module, the three-part key derived from it,
 * key overrides, the string form of a key, and the cache-file path of a key.
 */
module Keys {
  import opened Wrappers
  import opened Errors

  /** Identity of one cacheable invocation: (name, local hash, dependency hash). */
  datatype ModuleKey = ModuleKey(name: string, localHash: string, depHash: string)

  /**
   * What the module registry says about one module class: its parameter, result and
   * module dependencies and whether it switches result caching off.
   */
  datatype ModuleClass = ModuleClass(
    parameterDeps: set<string>,
    resultDeps: set<string>,
    moduleDeps: set<string>,
    disableResultCaching: bool)

  type Registry = map<string, ModuleClass>

  /** The dependencies the dependency-set walk descends into. */
  function Walked(c: ModuleClass): set<string>
  {
    c.resultDeps + c.moduleDeps
  }

  /**
   * The walk terminates: every result or module dependency other than the module
   * itself is registered and has a strictly smaller rank. Direct self-edges are
   * allowed, as the walk skips them.
   */
  ghost predicate Ranked(reg: Registry, rank: map<string, nat>)
  {
    forall n :: n in reg ==>
      n in rank &&
      forall d :: d in Walked(reg[n]) && d != n ==> d in reg && d in rank && rank[d] < rank[n]
  }

  /**
   * The hash dependency set of module n: its parameter dependencies together with the
   * dependency sets of its result and module dependencies other than n itself.
   */
  function DepSet(reg: Registry, ghost rank: map<string, nat>, n: string): (r: set<string>)
    requires Ranked(reg, rank) && n in reg
    ensures reg[n].parameterDeps <= r
    decreases rank[n]
  {
    reg[n].parameterDeps + (set d, x | d in Walked(reg[n]) && d != n && x in DepSet(reg, rank, d) :: x)
  }

  /** A walk in the registry: registered names, each step a result/module edge that is not a self-edge. */
  ghost predicate IsWalk(reg: Registry, path: seq<string>)
  {
    && |path| > 0
    && (forall i :: 0 <= i < |path| ==> path[i] in reg)
    && (forall i :: 0 <= i < |path| - 1 ==> path[i + 1] in Walked(reg[path[i]]) && path[i + 1] != path[i])
  }

  /** x is a parameter dependency of the module a walk from n ends at. */
  ghost predicate ReachesParameter(reg: Registry, n: string, path: seq<string>, x: string)
  {
    IsWalk(reg, path) && path[0] == n && x in reg[path[|path| - 1]].parameterDeps
  }

  /**
   * The dependency set, by an independent definition: x belongs to DepSet(n) exactly
   * when some walk from n ends at a module that declares x as a parameter dependency.
   */
  lemma {:induction false} DepSetByWalks(reg: Registry, rank: map<string, nat>, n: string, x: string)
    requires Ranked(reg, rank) && n in reg
    ensures x in DepSet(reg, rank, n) <==> exists path :: ReachesParameter(reg, n, path, x)
  {
    if x in DepSet(reg, rank, n) {
      var path := WalkTo(reg, rank, n, x);
      assert ReachesParameter(reg, n, path, x);
    }
    if exists path :: ReachesParameter(reg, n, path, x) {
      var path :| ReachesParameter(reg, n, path, x);
      WalkInDepSet(reg, rank, n, path, x);
    }
  }

  /** A member of the dependency set is reached by a walk. */
  lemma {:induction false} WalkTo(reg: Registry, rank: map<string, nat>, n: string, x: string)
    returns (path: seq<string>)
    requires Ranked(reg, rank) && n in reg && x in DepSet(reg, rank, n)
    ensures ReachesParameter(reg, n, path, x)
    decreases rank[n]
  {
    if x in reg[n].parameterDeps {
      path := [n];
    } else {
      var d :| d in Walked(reg[n]) && d != n && x in DepSet(reg, rank, d);
      var rest := WalkTo(reg, rank, d, x);
      path := [n] + rest;
      WalkCons(reg, n, rest);
    }
  }

  /** A step along a result/module edge, followed by a walk, is a walk with the same end. */
  lemma WalkCons(reg: Registry, n: string, rest: seq<string>)
    requires n in reg && IsWalk(reg, rest) && rest[0] in Walked(reg[n]) && rest[0] != n
    ensures IsWalk(reg, [n] + rest) && ([n] + rest)[|rest|] == rest[|rest| - 1]
  {
    var path := [n] + rest;
    forall i | 0 <= i < |path|
      ensures path[i] in reg
    {
      if i > 0 { assert path[i] == rest[i - 1]; }
    }
    forall i | 0 <= i < |path| - 1
      ensures path[i + 1] in Walked(reg[path[i]]) && path[i + 1] != path[i]
    {
      if i > 0 { assert path[i] == rest[i - 1] && path[i + 1] == rest[i]; }
    }
  }

  /** The end of a walk contributes its parameter dependencies to the walk's start. */
  lemma {:induction false} WalkInDepSet(reg: Registry, rank: map<string, nat>, n: string, path: seq<string>, x: string)
    requires Ranked(reg, rank) && n in reg && ReachesParameter(reg, n, path, x)
    ensures x in DepSet(reg, rank, n)
    decreases |path|
  {
    if |path| > 1 {
      var rest := path[1..];
      assert rest[0] in Walked(reg[n]) && rest[0] != n;
      forall i | 0 <= i < |rest| - 1
        ensures rest[i + 1] in Walked(reg[rest[i]]) && rest[i + 1] != rest[i]
      {
        assert rest[i] == path[i + 1] && rest[i + 1] == path[i + 2];
      }
      WalkInDepSet(reg, rank, rest[0], rest, x);
    }
  }

  /**
   * A result or module dependency only enters the set through a parameter declaration:
   * every member of the dependency set is some registered module's parameter dependency.
   */
  lemma DepSetOnlyParameters(reg: Registry, rank: map<string, nat>, n: string, x: string)
    requires Ranked(reg, rank) && n in reg && x in DepSet(reg, rank, n)
    ensures exists m :: m in reg && x in reg[m].parameterDeps
  {
    var path := WalkTo(reg, rank, n, x);
    assert path[|path| - 1] in reg;
  }

  /** The rank is only a termination witness: any two ranks give the same dependency set. */
  lemma {:induction false} DepSetRankIndependent(reg: Registry, r1: map<string, nat>, r2: map<string, nat>, n: string)
    requires Ranked(reg, r1) && Ranked(reg, r2) && n in reg
    ensures DepSet(reg, r1, n) == DepSet(reg, r2, n)
    decreases r1[n]
  {
    forall d | d in Walked(reg[n]) && d != n
      ensures DepSet(reg, r1, d) == DepSet(reg, r2, d)
    {
      DepSetRankIndependent(reg, r1, r2, d);
    }
  }

  /** The mapping whose hash is the dependency hash: each dependency other than name to its local hash. */
  function DependencyHashes(reg: Registry, ghost rank: map<string, nat>, localHash: string -> string, name: string)
    : (r: map<string, string>)
    requires Ranked(reg, rank) && name in reg
    ensures name !in r
    ensures reg[name].parameterDeps - {name} <= r.Keys <= DepSet(reg, rank, name)
    ensures r.Keys == DepSet(reg, rank, name) - {name}
    ensures forall d :: d in r ==> r[d] == localHash(d)
  {
    map d | d in DepSet(reg, rank, name) && d != name :: localHash(d)
  }

  /**
   * The key of a module: its name, the hash of its own configuration branch, and the
   * hash of the local hashes of its dependency set without the module itself.
   * localHash stands for the configuration collaborator's branch hash and hashMapping
   * for the hash of a mapping; a name the registry does not know is an error.
   */
  function ModuleKeyOf(reg: Registry, ghost rank: map<string, nat>, localHash: string -> string,
                       hashMapping: map<string, string> -> string, name: string): (r: Result<ModuleKey, Error>)
    requires Ranked(reg, rank)
    ensures r.Ok? <==> name in reg
    ensures r.Err? ==> r.error == UnknownModule(name)
    ensures r.Ok? ==> r.value.name == name && r.value.localHash == localHash(name)
  {
    if name !in reg then Err(UnknownModule(name))
    else Ok(ModuleKey(name, localHash(name), hashMapping(DependencyHashes(reg, rank, localHash, name))))
  }

  /**
   * Determinism restricted to the relevant branches: configurations whose local hashes
   * agree on the dependency set (the module itself excluded) give the same dependency
   * hash, whatever the module's own hash; if they also agree on the module, the same key.
   */
  lemma KeyDependsOnlyOnDepSet(reg: Registry, rank: map<string, nat>, lh1: string -> string, lh2: string -> string,
                               hashMapping: map<string, string> -> string, name: string)
    requires Ranked(reg, rank) && name in reg
    requires forall d :: d in DepSet(reg, rank, name) && d != name ==> lh1(d) == lh2(d)
    ensures ModuleKeyOf(reg, rank, lh1, hashMapping, name).value.depHash
         == ModuleKeyOf(reg, rank, lh2, hashMapping, name).value.depHash
    ensures lh1(name) == lh2(name) ==>
      ModuleKeyOf(reg, rank, lh1, hashMapping, name) == ModuleKeyOf(reg, rank, lh2, hashMapping, name)
  {
    assert DependencyHashes(reg, rank, lh1, name) == DependencyHashes(reg, rank, lh2, name);
  }

  /**
   * A change anywhere in the closure shows in the key: with a collision-free mapping
   * hash, a different local hash of any dependency d (other than the module) gives a
   * different dependency hash.
   */
  lemma KeySeesEveryDependency(reg: Registry, rank: map<string, nat>, lh1: string -> string, lh2: string -> string,
                               hashMapping: map<string, string> -> string, name: string, d: string)
    requires Ranked(reg, rank) && name in reg
    requires forall a, b :: hashMapping(a) == hashMapping(b) ==> a == b
    requires d in DepSet(reg, rank, name) && d != name && lh1(d) != lh2(d)
    ensures ModuleKeyOf(reg, rank, lh1, hashMapping, name).value.depHash
         != ModuleKeyOf(reg, rank, lh2, hashMapping, name).value.depHash
  {
    assert DependencyHashes(reg, rank, lh1, name)[d] != DependencyHashes(reg, rank, lh2, name)[d];
  }

  /** The key does not depend on which termination rank is used. */
  lemma KeyRankIndependent(reg: Registry, r1: map<string, nat>, r2: map<string, nat>, localHash: string -> string,
                           hashMapping: map<string, string> -> string, name: string)
    requires Ranked(reg, r1) && Ranked(reg, r2)
    ensures ModuleKeyOf(reg, r1, localHash, hashMapping, name) == ModuleKeyOf(reg, r2, localHash, hashMapping, name)
  {
    if name in reg {
      DepSetRankIndependent(reg, r1, r2, name);
      assert DependencyHashes(reg, r1, localHash, name) == DependencyHashes(reg, r2, localHash, name);
    }
  }

  /** A key with its local and dependency hashes replaced where an override is given. */
  function ProcessKey(key: ModuleKey, localOverride: Option<string>, depOverride: Option<string>): (r: ModuleKey)
    ensures r.name == key.name
    ensures localOverride.None? && depOverride.None? ==> r == key
    ensures r.localHash == if localOverride.Some? then localOverride.value else key.localHash
    ensures r.depHash == if depOverride.Some? then depOverride.value else key.depHash
  {
    if localOverride.None? && depOverride.None? then key
    else ModuleKey(key.name,
                   if localOverride.None? then key.localHash else localOverride.value,
                   if depOverride.None? then key.depHash else depOverride.value)
  }

  /** The printed form name-local-dep of a key. */
  function KeyString(key: ModuleKey): string
  {
    key.name + "-" + key.localHash + "-" + key.depHash
  }

  /** The string form of a key under overrides is the printed form of the overridden key. */
  function KeyAsString(key: ModuleKey, localOverride: Option<string>, depOverride: Option<string>): (r: string)
    ensures r == KeyString(ProcessKey(key, localOverride, depOverride))
  {
    key.name + "-"
      + (if localOverride.None? then key.localHash else localOverride.value) + "-"
      + (if depOverride.None? then key.depHash else depOverride.value)
  }

  /** When neither name nor local hash contains '-', the printed form identifies the key. */
  lemma KeyStringInjective(k1: ModuleKey, k2: ModuleKey)
    requires '-' !in k1.name && '-' !in k2.name && '-' !in k1.localHash && '-' !in k2.localHash
    requires KeyString(k1) == KeyString(k2)
    ensures k1 == k2
  {
    assert KeyString(k1) == k1.name + ['-'] + (k1.localHash + "-" + k1.depHash);
    assert KeyString(k2) == k2.name + ['-'] + (k2.localHash + "-" + k2.depHash);
    SplitAtSeparator(k1.name, k1.localHash + "-" + k1.depHash, k2.name, k2.localHash + "-" + k2.depHash, '-');
    assert k1.localHash + "-" + k1.depHash == k1.localHash + ['-'] + k1.depHash;
    assert k2.localHash + "-" + k2.depHash == k2.localHash + ['-'] + k2.depHash;
    SplitAtSeparator(k1.localHash, k1.depHash, k2.localHash, k2.depHash, '-');
  }

  /** Two strings split at the first occurrence of a separator absent from both heads. */
  lemma SplitAtSeparator(x: string, rest1: string, y: string, rest2: string, c: char)
    requires c !in x && c !in y && x + [c] + rest1 == y + [c] + rest2
    ensures x == y && rest1 == rest2
  {
    var s1, s2 := x + [c] + rest1, y + [c] + rest2;
    FirstSeparator(x, rest1, c);
    FirstSeparator(y, rest2, c);
    if |x| < |y| {
      assert false;
    } else if |y| < |x| {
      assert false;
    }
    assert x == s1[..|x|] && y == s2[..|y|];
    assert rest1 == s1[|x| + 1..] && rest2 == s2[|y| + 1..];
  }

  /** The first separator in head + [c] + rest sits right after the head. */
  lemma FirstSeparator(head: string, rest: string, c: char)
    requires c !in head
    ensures (head + [c] + rest)[|head|] == c
    ensures forall i :: 0 <= i < |head| ==> (head + [c] + rest)[i] != c
  {
    forall i | 0 <= i < |head|
      ensures (head + [c] + rest)[i] != c
    {
      assert (head + [c] + rest)[i] == head[i] && head[i] in head;
    }
  }

  /** Path joining as posixpath.join does it for two parts. */
  function Join(a: string, b: string): string
  {
    if |b| > 0 && b[0] == '/' then b
    else if a == "" || a[|a| - 1] == '/' then a + b
    else a + "/" + b
  }

  /** The file name of a key's cache file: local-dep.cache. */
  function FileName(key: ModuleKey): string
  {
    key.localHash + "-" + key.depHash + ".cache"
  }

  /** The cache file of an object: directory/name/object class/local-dep.cache. */
  function CacheFile(directory: string, key: ModuleKey, objName: string): string
  {
    Join(Join(Join(directory, key.name), objName), FileName(key))
  }

  /**
   * Join keeps its second part whole at the end: an absolute second part replaces the
   * first, a relative one is appended after the first (with a '/' where needed).
   */
  lemma JoinSpec(a: string, b: string)
    ensures |b| > 0 && b[0] == '/' ==> Join(a, b) == b
    ensures var r := Join(a, b); |r| >= |b| && r[|r| - |b|..] == b
    ensures !(|b| > 0 && b[0] == '/') ==> var r := Join(a, b); |r| >= |a| && r[..|a|] == a
  {
    if !(|b| > 0 && b[0] == '/') && !(a == "" || a[|a| - 1] == '/') {
      assert Join(a, b) == a + ("/" + b);
    }
  }

  /** Every cache path ends with the key's file name, local-dep.cache. */
  lemma CacheFileEndsWithFileName(directory: string, key: ModuleKey, objName: string)
    ensures var r := CacheFile(directory, key, objName);
      |r| >= |FileName(key)| && r[|r| - |FileName(key)|..] == FileName(key)
  {
    JoinSpec(Join(Join(directory, key.name), objName), FileName(key));
  }

  /** A non-empty path component without '/'. */
  predicate Segment(s: string)
  {
    |s| > 0 && '/' !in s
  }

  /** The text Join puts in front of a relative part. */
  function JoinPrefix(a: string): string
  {
    if a == "" || a[|a| - 1] == '/' then a else a + "/"
  }

  /** With segment-shaped parts, a cache path is the three parts separated by '/'. */
  lemma CacheFileShape(directory: string, key: ModuleKey, objName: string)
    requires Segment(key.name) && Segment(objName) && '/' !in key.localHash
    ensures CacheFile(directory, key, objName)
         == JoinPrefix(directory) + (key.name + ['/'] + (objName + ['/'] + FileName(key)))
  {
    var f := FileName(key);
    assert f[0] != '/' by { if |key.localHash| > 0 { assert key.localHash[0] in key.localHash; } }
    assert key.name[0] in key.name && objName[0] in objName;
    var a := JoinPrefix(directory) + key.name;
    assert Join(directory, key.name) == a;
    assert a[|a| - 1] == key.name[|key.name| - 1] && key.name[|key.name| - 1] in key.name;
    var b := a + "/" + objName;
    assert Join(a, objName) == b;
    assert b[|b| - 1] == objName[|objName| - 1] && objName[|objName| - 1] in objName;
    assert Join(b, f) == b + "/" + f;
  }

  /**
   * Distinct objects never share a cache file: when names and object classes are
   * path segments and local hashes contain neither '/' nor '-' (as hex digests do),
   * equal cache paths under one directory mean equal keys and object classes.
   */
  lemma CacheFileInjective(directory: string, k1: ModuleKey, o1: string, k2: ModuleKey, o2: string)
    requires Segment(k1.name) && Segment(o1) && Segment(k2.name) && Segment(o2)
    requires '/' !in k1.localHash && '-' !in k1.localHash && '/' !in k2.localHash && '-' !in k2.localHash
    requires CacheFile(directory, k1, o1) == CacheFile(directory, k2, o2)
    ensures k1 == k2 && o1 == o2
  {
    var p := JoinPrefix(directory);
    var f1, f2 := FileName(k1), FileName(k2);
    CacheFileShape(directory, k1, o1);
    CacheFileShape(directory, k2, o2);
    var t1, t2 := k1.name + ['/'] + (o1 + ['/'] + f1), k2.name + ['/'] + (o2 + ['/'] + f2);
    assert t1 == (p + t1)[|p|..] && t2 == (p + t2)[|p|..];
    SplitAtSeparator(k1.name, o1 + ['/'] + f1, k2.name, o2 + ['/'] + f2, '/');
    assert f1[0] != '/' by { if |k1.localHash| > 0 { assert k1.localHash[0] in k1.localHash; } }
    assert f2[0] != '/' by { if |k2.localHash| > 0 { assert k2.localHash[0] in k2.localHash; } }
    SplitAtSeparator(o1, f1, o2, f2, '/');
    FileNameInjective(k1, k2);
  }

  /** With no '-' in the local hashes, the file name gives back the local and dependency hashes. */
  lemma FileNameInjective(k1: ModuleKey, k2: ModuleKey)
    requires '-' !in k1.localHash && '-' !in k2.localHash && FileName(k1) == FileName(k2)
    ensures k1.localHash == k2.localHash && k1.depHash == k2.depHash
  {
    assert FileName(k1) == k1.localHash + ['-'] + (k1.depHash + ".cache");
    assert FileName(k2) == k2.localHash + ['-'] + (k2.depHash + ".cache");
    SplitAtSeparator(k1.localHash, k1.depHash + ".cache", k2.localHash, k2.depHash + ".cache", '-');
    assert k1.depHash == (k1.depHash + ".cache")[..|k1.depHash|];
    assert k2.depHash == (k2.depHash + ".cache")[..|k2.depHash|];
  }

  /** Whether a module keeps its results in the cache (unregistered names are treated as caching). */
  function ResultCachingEnabled(reg: Registry, name: string): (r: bool)
    ensures name !in reg ==> r
    ensures name in reg ==> (r <==> !reg[name].disableResultCaching)
  {
    !(name in reg && reg[name].disableResultCaching)
  }
}

=== FILE: manager.dfy ===
/**
 * The coordinator: a Manager object that owns the two-tier cache, the live module
 * instances, the set of reported (name, key) pairs and the common-object pools, and
 * answers requests for module results.
 *
 * run() of a module and its reportResults callback are code outside this model; they
 * are given to the manager as functions (the callback's outcome says whether it
 * returned or raised). The ghost logs runLog and reportLog record every call of the
 * two, so that "a cache hit skips run()" and "report once" can be stated; loadLog
 * records every results load on a hit, so that the origin of each answer can be stated.
 */
module Coordinator {
  import opened Wrappers
  import opened Errors
  import opened Objects
  import opened Names
  import opened Keys
  import opened Cache
  import opened CommonPool

  /** A module instance: its name, the key it was built for, a serial telling instances apart, its local results. */
  datatype Instance = Instance(name: string, key: ModuleKey, serial: nat, localResults: Option<Obj>)

  /** A name argument: one name or a list (list, tuple or set in the source). */
  datatype NameArg = Single(name: string) | Listed(names: seq<string>)

  /** The name parameter of getResults: absent, a supported argument, or a value of another type. */
  datatype NameRequest = Default | Given(arg: NameArg) | Unsupported

  /**
   * What the manager reads from a parameter tree: the branch hash of every module
   * (the configuration collaborator's hash of its preprocessed branch) and run_queue.
   */
  datatype Config = Config(localHash: string -> string, runQueue: Option<NameArg>)

  /** The answer of getResults: one result, or the frozen "results" tree of name to result in request order. */
  datatype Answer = One(result: Obj) | Collected(order: seq<string>, results: map<string, Obj>)

  datatype RunCall = RunCall(instance: Instance, output: Option<Obj>)

  datatype ReportCall = ReportCall(name: string, key: ModuleKey, succeeded: bool)

  /** A results load on a cache hit: the key and the object the cache gave. */
  datatype LoadCall = LoadCall(key: ModuleKey, value: Obj)

  /** The result stored for a run: what run() returned, or the empty tree when it returned nothing. */
  function ResultOf(output: Option<Obj>): Obj
  {
    if output.Some? then output.value else EmptyResult
  }

  /** The names getResults works through: the given ones, or run_queue (a lone name made a list). */
  function RequestedNames(cfg: Config, request: NameRequest): (r: seq<string>)
    ensures request.Unsupported? ==> r == []
    ensures request.Given? ==> r == (if request.arg.Single? then [request.arg.name] else request.arg.names)
    ensures request.Default? && cfg.runQueue.Some? && cfg.runQueue.value.Single? ==> r == [cfg.runQueue.value.name]
    ensures request.Default? && cfg.runQueue.Some? && cfg.runQueue.value.Listed? ==> r == cfg.runQueue.value.names
    ensures request.Default? && cfg.runQueue.None? ==> r == []
  {
    match request
    case Given(Listed(names)) => names
    case Given(Single(name)) => [name]
    case Default =>
      (match cfg.runQueue
       case None => []
       case Some(Single(name)) => [name]
       case Some(Listed(names)) => names)
    case Unsupported => []
  }

  /** No instance built for key k ran in these runs. */
  ghost predicate NoRunOf(k: ModuleKey, runs: seq<RunCall>)
  {
    forall j :: 0 <= j < |runs| ==> runs[j].instance.key != k
  }

  /** Nothing was loaded from the cache for key k in these loads. */
  ghost predicate NoLoadOf(k: ModuleKey, loads: seq<LoadCall>)
  {
    forall j :: 0 <= j < |loads| ==> loads[j].key != k
  }

  /**
   * How getResults obtained the value v for the registered module n whose key is k.
   * On a hit (possible only when the module caches its results) one of the loads on k
   * gave v and no instance built for k ran; on a miss v is the result of one of the
   * runs of an instance built for k, and nothing was loaded for k.
   */
  ghost predicate Served(reg: Registry, n: string, k: ModuleKey, v: Obj, hit: bool,
                         runs: seq<RunCall>, loads: seq<LoadCall>)
  {
    if hit then
      && ResultCachingEnabled(reg, n)
      && (exists j :: 0 <= j < |loads| && loads[j] == LoadCall(k, v))
      && NoRunOf(k, runs)
    else
      && (exists j :: 0 <= j < |runs| && runs[j].instance.key == k && v == ResultOf(runs[j].output))
      && NoLoadOf(k, loads)
  }

  /** Further runs and loads of other keys keep every earlier answer served. */
  lemma ServedExtend(reg: Registry, n: string, k: ModuleKey, v: Obj, hit: bool,
                     runs: seq<RunCall>, loads: seq<LoadCall>, runs2: seq<RunCall>, loads2: seq<LoadCall>)
    requires Served(reg, n, k, v, hit, runs, loads)
    requires runs <= runs2 && loads <= loads2
    requires forall j :: |runs| <= j < |runs2| ==> runs2[j].instance.key != k
    requires forall j :: |loads| <= j < |loads2| ==> loads2[j].key != k
    ensures Served(reg, n, k, v, hit, runs2, loads2)
  {
    if hit {
      var j :| 0 <= j < |loads| && loads[j] == LoadCall(k, v);
      assert loads2[j] == loads[j];
      forall j | 0 <= j < |runs2| ensures runs2[j].instance.key != k {
        if j < |runs| {
          assert runs2[j] == runs[j];
        }
      }
    } else {
      var j :| 0 <= j < |runs| && runs[j].instance.key == k && v == ResultOf(runs[j].output);
      assert runs2[j] == runs[j];
      forall j | 0 <= j < |loads2| ensures loads2[j].key != k {
        if j < |loads| {
          assert loads2[j] == loads[j];
        }
      }
    }
  }

  /**
   * An answer served by the later part of the logs is served by any longer tail of
   * them, when the added stretch holds no run and no load of its key.
   */
  lemma ServedInLongerTail(reg: Registry, n: string, k: ModuleKey, v: Obj, hit: bool,
                           runs: seq<RunCall>, loads: seq<LoadCall>, p0: nat, p: nat, q0: nat, q: nat)
    requires p0 <= p <= |runs| && q0 <= q <= |loads|
    requires Served(reg, n, k, v, hit, runs[p..], loads[q..])
    requires forall j :: p0 <= j < p ==> runs[j].instance.key != k
    requires forall j :: q0 <= j < q ==> loads[j].key != k
    ensures Served(reg, n, k, v, hit, runs[p0..], loads[q0..])
  {
    if hit {
      var j :| 0 <= j < |loads[q..]| && loads[q..][j] == LoadCall(k, v);
      assert loads[q0..][j + q - q0] == loads[q..][j];
      forall j | 0 <= j < |runs[p0..]| ensures runs[p0..][j].instance.key != k {
        if j >= p - p0 {
          assert runs[p0..][j] == runs[p..][j - (p - p0)];
        }
      }
    } else {
      var j :| 0 <= j < |runs[p..]| && runs[p..][j].instance.key == k && v == ResultOf(runs[p..][j].output);
      assert runs[p0..][j + p - p0] == runs[p..][j];
      forall j | 0 <= j < |loads[q0..]| ensures loads[q0..][j].key != k {
        if j >= q - q0 {
          assert loads[q0..][j] == loads[q..][j - (q - q0)];
        }
      }
    }
  }

  /** Cutting the same prefix off two logs, one extending the other, keeps the extension. */
  lemma SlicePrefix<T>(a: seq<T>, b: seq<T>, c: seq<T>)
    requires a <= b && b <= c
    ensures b[|a|..] <= c[|a|..]
  {
    assert forall i :: 0 <= i < |b| - |a| ==> b[|a|..][i] == b[|a| + i] == c[|a| + i] == c[|a|..][i];
  }

  class Manager {
    const settings: Settings
    const registry: Registry
    ghost const rank: map<string, nat>
    const hashMapping: map<string, string> -> string
    const run: Instance -> Option<Obj>
    const reportResults: (string, Obj) -> bool

    var localCache: map<Slot, Obj>
    var currentResultKeys: map<string, Slot>
    var disk: map<string, Obj>
    var currentModules: map<string, (ModuleKey, Instance)>
    var reportedResults: set<(string, ModuleKey)>
    var commonObjects: Pools
    var instancesCreated: nat

    ghost var runLog: seq<RunCall>
    ghost var reportLog: seq<ReportCall>
    ghost var loadLog: seq<LoadCall>

    ghost function CacheView(): CacheState
      reads this`localCache, this`currentResultKeys, this`disk
    {
      CacheState(localCache, currentResultKeys, disk)
    }

    /** Every successful report is recorded, and after one, that (name, key) is never reported again. */
    ghost predicate ReportedOnce()
      reads this`reportLog, this`reportedResults
    {
      && (forall i :: 0 <= i < |reportLog| && reportLog[i].succeeded ==>
            (reportLog[i].name, reportLog[i].key) in reportedResults)
      && (forall i, j :: 0 <= i < j < |reportLog| && reportLog[i].succeeded ==>
            (reportLog[j].name, reportLog[j].key) != (reportLog[i].name, reportLog[i].key))
    }

    /** Each live instance is stored under its own name and key, with a serial already handed out. */
    ghost predicate ModulesValid()
      reads this`currentModules, this`instancesCreated
    {
      forall n :: n in currentModules ==>
        currentModules[n].1.name == n && currentModules[n].1.key == currentModules[n].0
        && currentModules[n].1.serial < instancesCreated
    }

    ghost predicate PoolsValid()
      reads this`commonObjects
    {
      forall name :: name in commonObjects ==> AtMostOneTransient(commonObjects[name])
    }

    ghost predicate Valid()
      reads this
    {
      && Ranked(registry, rank)
      && Cache.Valid(registry, CacheView())
      && ModulesValid()
      && ReportedOnce()
      && PoolsValid()
      && RunsGiveTrees()
    }

    /** run() hands back a tree, or nothing: getResults freezes what it returns, which only a tree supports. */
    ghost predicate RunsGiveTrees()
    {
      forall m :: run(m).Some? ==> run(m).value.Tree?
    }

    /** A manager with empty memory layers over an existing disk cache. */
    constructor (settings: Settings, registry: Registry, ghost rank: map<string, nat>,
                 hashMapping: map<string, string> -> string, run: Instance -> Option<Obj>,
                 reportResults: (string, Obj) -> bool, disk: map<string, Obj>)
      requires Ranked(registry, rank)
      requires forall m :: run(m).Some? ==> run(m).value.Tree?
      ensures Valid()
      ensures this.settings == settings && this.registry == registry && this.disk == disk
      ensures localCache == map[] && currentResultKeys == map[] && currentModules == map[]
      ensures reportedResults == {} && commonObjects == map[] && runLog == [] && reportLog == [] && loadLog == []
    {
      this.settings, this.registry, this.rank := settings, registry, rank;
      this.hashMapping, this.run, this.reportResults := hashMapping, run, reportResults;
      this.disk := disk;
      localCache, currentResultKeys, currentModules := map[], map[], map[];
      reportedResults, commonObjects, instancesCreated := {}, map[], 0;
      runLog, reportLog, loadLog := [], [], [];
    }

    /** The results of this key are in the cache. */
    ghost predicate ResultsCached(key: ModuleKey)
      reads this`localCache, this`currentResultKeys, this`disk
    {
      Cache.InCache(settings, registry, CacheView(), key, Results)
    }

    /** inCache: the overridden key's object is in memory or, where it applies, on disk. */
    method InCache(key: ModuleKey, objName: string, localOverride: Option<string>, depOverride: Option<string>)
      returns (inCache: bool)
      ensures inCache == Cache.InCache(settings, registry, CacheView(), ProcessKey(key, localOverride, depOverride), objName)
    {
      var k := ProcessKey(key, localOverride, depOverride);
      inCache := false;
      if Slot(k, objName) in localCache {
        inCache := true;
      } else if settings.UseDisk() {
        if objName == Results && !ResultCachingEnabled(registry, k.name) {
          inCache := false;
        } else {
          inCache := CacheFile(settings.cacheDirectory.value, k, objName) in disk;
        }
      } else {
        inCache := false;
      }
    }

    /** loadFromCache: the memory copy, else the unwrapped disk copy, else a failure. */
    method LoadFromCache(key: ModuleKey, objName: string, localOverride: Option<string>, depOverride: Option<string>)
      returns (res: Result<Obj, Error>)
      ensures res == Cache.Load(settings, CacheView(), ProcessKey(key, localOverride, depOverride), objName)
    {
      var k := ProcessKey(key, localOverride, depOverride);
      if Slot(k, objName) in localCache {
        return Ok(localCache[Slot(k, objName)]);
      }
      if !settings.UseDisk() {
        return Err(NotCached);
      }
      var filename := CacheFile(settings.cacheDirectory.value, k, objName);
      if filename !in disk {
        return Err(NotCached);
      }
      return Ok(Unwrap(disk[filename]));
    }

    /** saveToCache, with the results eviction skipped when the entry evicted would be the one just saved. */
    method SaveToCache(key: ModuleKey, objName: string, v: Obj, localOverride: Option<string>, depOverride: Option<string>)
      requires Cache.Valid(registry, CacheView())
      modifies this`localCache, this`currentResultKeys, this`disk
      ensures Cache.Valid(registry, CacheView())
      ensures CacheView() == Save(settings, registry, old(CacheView()), ProcessKey(key, localOverride, depOverride), objName, v)
    {
      var k := ProcessKey(key, localOverride, depOverride);
      SavePreservesValid(settings, registry, CacheView(), k, objName, v);
      if objName == Results && !ResultCachingEnabled(registry, k.name) {
        return;
      }
      var slot := Slot(k, objName);
      localCache := localCache[slot := v];
      if objName == Results {
        if Results in currentResultKeys && currentResultKeys[Results] != slot {
          localCache := localCache - {currentResultKeys[Results]};
        }
        currentResultKeys := currentResultKeys[Results := slot];
      }
      if !settings.UseDisk() || settings.readOnly {
        return;
      }
      disk := disk[CacheFile(settings.cacheDirectory.value, k, objName) := Wrap(v)];
    }

    /**
     * __reportResults: nothing when (name, key) was reported before; otherwise call the
     * module's reportResults and record the pair only if the callback returned.
     */
    method ReportResults(name: string, key: ModuleKey, r: Obj) returns (res: Result<(), Error>)
      requires ReportedOnce()
      modifies this`reportedResults, this`reportLog
      ensures ReportedOnce()
      ensures old((name, key) in reportedResults) ==>
        res.Ok? && reportLog == old(reportLog) && reportedResults == old(reportedResults)
      ensures !old((name, key) in reportedResults) ==>
        && reportLog == old(reportLog) + [ReportCall(name, key, reportResults(name, r))]
        && (res.Ok? <==> reportResults(name, r))
        && reportedResults == if res.Ok? then old(reportedResults) + {(name, key)} else old(reportedResults)
      ensures res.Ok? <==> (name, key) in reportedResults
      ensures res.Err? ==> res.error == ReportFailed(name)
    {
      if (name, key) in reportedResults {
        return Ok(());
      }
      var succeeded := reportResults(name, r);
      reportLog := reportLog + [ReportCall(name, key, succeeded)];
      if !succeeded {
        return Err(ReportFailed(name));
      }
      reportedResults := reportedResults + {(name, key)};
      return Ok(());
    }

    /**
     * The tail of a miss in _getResults: store the result under the key's results slot,
     * then report it.
     */
    method StoreAndReport(n: string, key: ModuleKey, r: Obj) returns (res: Result<(), Error>)
      requires Cache.Valid(registry, CacheView()) && ReportedOnce()
      modifies this`localCache, this`currentResultKeys, this`disk, this`reportedResults, this`reportLog
      ensures Cache.Valid(registry, CacheView()) && ReportedOnce()
      ensures CacheView() == Save(settings, registry, old(CacheView()), key, Results, r)
      ensures old(disk.Keys) <= disk.Keys
      ensures Cacheable(registry, key, Results) ==>
        Slot(key, Results) in localCache && localCache[Slot(key, Results)] == r
      ensures old(reportedResults) <= reportedResults
      ensures res.Ok? <==> (n, key) in reportedResults
      ensures res.Err? ==> res.error == ReportFailed(n)
    {
      SaveToCache(key, Results, r, None, None);
      if Cacheable(registry, key, Results) {
        SaveThenLoad(settings, registry, old(CacheView()), key, Results, r);
      }
      res := ReportResults(n, key, r);
    }

    /** Run an instance; the call is recorded and its output (or the empty tree) is the result. */
    method Run(m: Instance) returns (r: Obj)
      requires RunsGiveTrees()
      modifies this`runLog
      ensures runLog == old(runLog) + [RunCall(m, run(m))]
      ensures r == ResultOf(run(m))
      ensures r.Tree?
    {
      var output := run(m);
      runLog := runLog + [RunCall(m, output)];
      r := ResultOf(output);
    }

    /** The hit path of _getResults: load the cached results and report them. */
    method LoadAndReport(n: string, key: ModuleKey) returns (res: Result<Obj, Error>)
      requires ReportedOnce() && ResultsCached(key)
      modifies this`reportedResults, this`reportLog, this`loadLog
      ensures ReportedOnce()
      ensures old(reportedResults) <= reportedResults
      ensures loadLog == old(loadLog) + [LoadCall(key, Cache.Load(settings, CacheView(), key, Results).value)]
      ensures res.Ok? <==> (n, key) in reportedResults
      ensures res.Ok? ==> res.value == Cache.Load(settings, CacheView(), key, Results).value
      ensures res.Err? ==> res.error == ReportFailed(n)
    {
      var loaded := LoadFromCache(key, Results, None, None);
      InCacheThenLoads(settings, registry, CacheView(), key, Results);
      loadLog := loadLog + [LoadCall(key, loaded.value)];
      var reported := ReportResults(n, key, loaded.value);
      if reported.Err? {
        return Err(reported.error);
      }
      return Ok(loaded.value);
    }

    /**
     * _getResults with a key: on a cache hit, load and report; on a miss, run the module
     * (the given instance, or one obtained through _getModule), store and report.
     */
    method ResultsForKey(name: string, key: ModuleKey, instance: Option<Instance>) returns (res: Result<Obj, Error>)
      requires Valid()
      requires instance.Some? ==> instance.value.key == key
      modifies this`localCache, this`currentResultKeys, this`disk, this`currentModules, this`instancesCreated,
               this`reportedResults, this`runLog, this`reportLog, this`loadLog
      decreases if instance.None? then 5 else 1
      ensures Valid()
      ensures old(disk.Keys) <= disk.Keys
      ensures old(reportedResults) <= reportedResults
      ensures res.Ok? <==> (Lower(name), key) in reportedResults
      ensures res.Err? ==> res.error == ReportFailed(Lower(name))
      ensures instance.Some? ==> currentModules == old(currentModules) && instancesCreated == old(instancesCreated)
      ensures old(ResultsCached(key)) ==>
        && runLog == old(runLog) && CacheView() == old(CacheView()) && currentModules == old(currentModules)
        && loadLog == old(loadLog) + [LoadCall(key, old(Cache.Load(settings, CacheView(), key, Results)).value)]
        && (res.Ok? ==> res.value == old(Cache.Load(settings, CacheView(), key, Results)).value)
      ensures !old(ResultsCached(key)) ==>
        && loadLog == old(loadLog)
        && |runLog| == |old(runLog)| + 1 && runLog[..|old(runLog)|] == old(runLog)
        && runLog[|runLog| - 1].instance.key == key
        && (instance.Some? ==> runLog[|runLog| - 1] == RunCall(instance.value, run(instance.value)))
        && (res.Ok? ==> res.value == ResultOf(runLog[|runLog| - 1].output))
        && (res.Ok? && Cacheable(registry, key, Results) ==>
              Slot(key, Results) in localCache && localCache[Slot(key, Results)] == res.value)
      ensures !ResultCachingEnabled(registry, key.name) ==> |runLog| == |old(runLog)| + 1
    {
      var n := Lower(name);
      if !ResultCachingEnabled(registry, key.name) {
        DisabledNeverInCache(settings, registry, CacheView(), key);
      }
      var hit := InCache(key, Results, None, None);
      if hit {
        res := LoadAndReport(n, key);
      } else {
        LowerIdempotent(name);
        res := RunAndReport(n, key, instance);
      }
    }

    /**
     * The miss path of _getResults: run the module (the given instance, or one obtained
     * through _getModule), store the result and report it.
     */
    method RunAndReport(n: string, key: ModuleKey, instance: Option<Instance>) returns (res: Result<Obj, Error>)
      requires Valid() && !ResultsCached(key) && Lower(n) == n
      requires instance.Some? ==> instance.value.key == key
      modifies this`localCache, this`currentResultKeys, this`disk, this`currentModules, this`instancesCreated,
               this`reportedResults, this`runLog, this`reportLog, this`loadLog
      decreases if instance.None? then 4 else 0
      ensures Valid()
      ensures old(disk.Keys) <= disk.Keys
      ensures old(reportedResults) <= reportedResults
      ensures res.Ok? <==> (n, key) in reportedResults
      ensures res.Err? ==> res.error == ReportFailed(n)
      ensures instance.Some? ==> currentModules == old(currentModules) && instancesCreated == old(instancesCreated)
      ensures loadLog == old(loadLog)
      ensures |runLog| == |old(runLog)| + 1 && runLog[..|old(runLog)|] == old(runLog)
      ensures runLog[|runLog| - 1].instance.key == key
      ensures instance.Some? ==> runLog[|runLog| - 1] == RunCall(instance.value, run(instance.value))
      ensures res.Ok? ==> res.value == ResultOf(runLog[|runLog| - 1].output)
      ensures res.Ok? && Cacheable(registry, key, Results) ==>
        Slot(key, Results) in localCache && localCache[Slot(key, Results)] == res.value
    {
      var r: Obj;
      if instance.None? {
        var got := ModuleForKey(n, key);
        if got.Err? {
          return Err(got.error);
        }
        r := got.value.1;
      } else {
        r := Run(instance.value);
      }
      var reported := StoreAndReport(n, key, r);
      if reported.Err? {
        return Err(reported.error);
      }
      return Ok(r);
    }

    /**
     * _getModule with a key: reuse the live instance of the module when it was built for
     * the same key, otherwise build a new one; record it as the live instance, get its
     * results and give them to it.
     */
    method ModuleForKey(name: string, key: ModuleKey) returns (res: Result<(Instance, Obj), Error>)
      requires Valid()
      modifies this`localCache, this`currentResultKeys, this`disk, this`currentModules, this`instancesCreated,
               this`reportedResults, this`runLog, this`reportLog, this`loadLog
      decreases 3
      ensures Valid()
      ensures old(disk.Keys) <= disk.Keys
      ensures old(reportedResults) <= reportedResults
      ensures name in currentModules && currentModules[name].0 == key
      ensures currentModules == old(currentModules)[name := currentModules[name]]
      ensures old(name in currentModules) ==>
        (currentModules[name].1.serial == old(currentModules[name].1.serial) <==> old(currentModules[name].0) == key)
      ensures currentModules[name].1.serial ==
        (if old(name in currentModules && currentModules[name].0 == key)
         then old(currentModules[name].1.serial) else old(instancesCreated))
      ensures res.Ok? <==> (Lower(name), key) in reportedResults
      ensures res.Ok? ==> res.value.0 == currentModules[name].1 && res.value.0.localResults == Some(res.value.1)
      ensures res.Err? ==> res.error == ReportFailed(Lower(name))
      ensures old(ResultsCached(key)) ==>
        && runLog == old(runLog) && CacheView() == old(CacheView())
        && loadLog == old(loadLog) + [LoadCall(key, old(Cache.Load(settings, CacheView(), key, Results)).value)]
        && (res.Ok? ==> res.value.1 == old(Cache.Load(settings, CacheView(), key, Results)).value)
      ensures !old(ResultsCached(key)) ==>
        && loadLog == old(loadLog)
        && |runLog| == |old(runLog)| + 1 && runLog[..|old(runLog)|] == old(runLog)
        && runLog[|runLog| - 1].instance.key == key
        && runLog[|runLog| - 1].instance.serial == currentModules[name].1.serial
        && (res.Ok? ==> res.value.1 == ResultOf(runLog[|runLog| - 1].output))
        && (res.Ok? && Cacheable(registry, key, Results) ==>
              Slot(key, Results) in localCache && localCache[Slot(key, Results)] == res.value.1)
    {
      var m := Install(name, key);
      assert CacheView() == old(CacheView()) && ResultsCached(key) == old(ResultsCached(key));
      res := RunInstalled(name, key, m);
    }

    /** The second half of _getModule: get the results of the installed instance and give them to it. */
    method RunInstalled(name: string, key: ModuleKey, m: Instance) returns (res: Result<(Instance, Obj), Error>)
      requires Valid() && m.key == key && name in currentModules && currentModules[name] == (key, m)
      modifies this`localCache, this`currentResultKeys, this`disk, this`currentModules, this`instancesCreated,
               this`reportedResults, this`runLog, this`reportLog, this`loadLog
      decreases 2
      ensures Valid()
      ensures old(disk.Keys) <= disk.Keys
      ensures old(reportedResults) <= reportedResults
      ensures name in currentModules && currentModules[name].0 == key && currentModules[name].1.serial == m.serial
      ensures currentModules == old(currentModules)[name := currentModules[name]]
      ensures instancesCreated == old(instancesCreated)
      ensures res.Ok? <==> (Lower(name), key) in reportedResults
      ensures res.Ok? ==> res.value.0 == currentModules[name].1 && res.value.0.localResults == Some(res.value.1)
      ensures res.Err? ==> res.error == ReportFailed(Lower(name))
      ensures old(ResultsCached(key)) ==>
        && runLog == old(runLog) && CacheView() == old(CacheView())
        && loadLog == old(loadLog) + [LoadCall(key, old(Cache.Load(settings, CacheView(), key, Results)).value)]
        && (res.Ok? ==> res.value.1 == old(Cache.Load(settings, CacheView(), key, Results)).value)
      ensures !old(ResultsCached(key)) ==>
        && loadLog == old(loadLog)
        && |runLog| == |old(runLog)| + 1 && runLog[..|old(runLog)|] == old(runLog)
        && runLog[|runLog| - 1].instance == m
        && (res.Ok? ==> res.value.1 == ResultOf(runLog[|runLog| - 1].output))
        && (res.Ok? && Cacheable(registry, key, Results) ==>
              Slot(key, Results) in localCache && localCache[Slot(key, Results)] == res.value.1)
    {
      var r := ResultsForKey(name, key, Some(m));
      if r.Err? {
        return Err(r.error);
      }
      var given := GiveLocalResults(name, r.value);
      return Ok((given, r.value));
    }

    /** The live instance for (name, key): the current one when its key matches, else a new one. */
    method Install(name: string, key: ModuleKey) returns (m: Instance)
      requires ModulesValid()
      modifies this`currentModules, this`instancesCreated
      ensures ModulesValid()
      ensures m.name == name && m.key == key
      ensures currentModules == old(currentModules)[name := (key, m)]
      ensures old(name in currentModules) ==>
        (m == old(currentModules[name].1) <==> old(currentModules[name].0) == key)
      ensures m.serial ==
        (if old(name in currentModules && currentModules[name].0 == key)
         then old(currentModules[name].1.serial) else old(instancesCreated))
    {
      if name in currentModules && currentModules[name].0 == key {
        m := currentModules[name].1;
      } else {
        m := Instance(name, key, instancesCreated, None);
        instancesCreated := instancesCreated + 1;
      }
      currentModules := currentModules[name := (key, m)];
    }

    /** Hand the results to the live instance of the module. */
    method GiveLocalResults(name: string, r: Obj) returns (m: Instance)
      requires ModulesValid() && name in currentModules
      modifies this`currentModules
      ensures ModulesValid()
      ensures m == old(currentModules[name].1).(localResults := Some(r))
      ensures currentModules == old(currentModules)[name := (old(currentModules[name].0), m)]
    {
      m := currentModules[name].1.(localResults := Some(r));
      currentModules := currentModules[name := (currentModules[name].0, m)];
    }

    /**
     * Every collected name is a registered module, reported under its derived key, and
     * its answer was served by one of the given runs or hits, as hits records; every
     * given run and hit was for a collected name.
     */
    ghost predicate Answered(cfg: Config, results: map<string, Obj>, hits: map<string, bool>,
                             reported: set<(string, ModuleKey)>, runs: seq<RunCall>, loads: seq<LoadCall>)
      requires Ranked(registry, rank)
    {
      && (forall n :: n in results ==>
            && n in registry && n in hits && (n, KeyOf(cfg, n)) in reported
            && Served(registry, n, KeyOf(cfg, n), results[n], hits[n], runs, loads))
      && (forall j :: 0 <= j < |runs| ==> runs[j].instance.key.name in results)
      && (forall j :: 0 <= j < |loads| ==> loads[j].key.name in results)
    }

    /**
     * Adding one new served, reported name whose runs and hits come after the given ones
     * keeps the collected answers answered.
     */
    lemma AnsweredExtend(cfg: Config, results: map<string, Obj>, hits: map<string, bool>, n: string, v: Obj, hit: bool,
                         reported: set<(string, ModuleKey)>, reported2: set<(string, ModuleKey)>,
                         runs: seq<RunCall>, loads: seq<LoadCall>, runs2: seq<RunCall>, loads2: seq<LoadCall>)
      requires Ranked(registry, rank)
      requires Answered(cfg, results, hits, reported, runs, loads)
      requires reported <= reported2 && runs <= runs2 && loads <= loads2
      requires n in registry && (n, KeyOf(cfg, n)) in reported2 && Served(registry, n, KeyOf(cfg, n), v, hit, runs2, loads2)
      requires forall j :: |runs| <= j < |runs2| ==> runs2[j].instance.key == KeyOf(cfg, n)
      requires forall j :: |loads| <= j < |loads2| ==> loads2[j].key == KeyOf(cfg, n)
      ensures Answered(cfg, results[n := v], hits[n := hit], reported2, runs2, loads2)
    {
      var results2, hits2 := results[n := v], hits[n := hit];
      var kn := KeyOf(cfg, n);
      forall m | m in results2
        ensures m in registry && m in hits2 && (m, KeyOf(cfg, m)) in reported2
        ensures Served(registry, m, KeyOf(cfg, m), results2[m], hits2[m], runs2, loads2)
      {
        if m != n {
          var k := KeyOf(cfg, m);
          assert m in registry && (m, k) in reported && Served(registry, m, k, results[m], hits[m], runs, loads);
          assert k.name == m && kn.name == n;
          ServedExtend(registry, m, k, results[m], hits[m], runs, loads, runs2, loads2);
        }
      }
      forall j | 0 <= j < |runs2| ensures runs2[j].instance.key.name in results2 {
        if j < |runs| {
          assert runs2[j] == runs[j];
        } else {
          assert runs2[j].instance.key == kn && kn.name == n;
        }
      }
      forall j | 0 <= j < |loads2| ensures loads2[j].key.name in results2 {
        if j < |loads| {
          assert loads2[j] == loads[j];
        } else {
          assert loads2[j].key == kn && kn.name == n;
        }
      }
    }

    /** A cacheable results file for key k that the disk cache held in disk0. */
    ghost predicate FileCached(k: ModuleKey, disk0: map<string, Obj>)
    {
      settings.UseDisk() && Cacheable(registry, k, Results) && PathOf(settings, k, Results) in disk0
    }

    /** The derived key of a registered module. */
    ghost function KeyOf(cfg: Config, n: string): ModuleKey
      requires Ranked(registry, rank) && n in registry
    {
      ModuleKeyOf(registry, rank, cfg.localHash, hashMapping, n).value
    }

    /** _getResults without a key: derive the key of the lower-cased name, then as above. */
    method ResultsFor(cfg: Config, name: string) returns (res: Result<Obj, Error>)
      requires Valid()
      modifies this`localCache, this`currentResultKeys, this`disk, this`currentModules, this`instancesCreated,
               this`reportedResults, this`runLog, this`reportLog, this`loadLog
      ensures Valid()
      ensures old(disk.Keys) <= disk.Keys
      ensures old(reportedResults) <= reportedResults
      ensures |old(runLog)| <= |runLog| <= |old(runLog)| + 1 && runLog[..|old(runLog)|] == old(runLog)
      ensures |old(loadLog)| <= |loadLog| <= |old(loadLog)| + 1 && loadLog[..|old(loadLog)|] == old(loadLog)
      ensures var k := ModuleKeyOf(registry, rank, cfg.localHash, hashMapping, Lower(name));
        && (k.Err? ==> res == Err(k.error) && runLog == old(runLog) && loadLog == old(loadLog)
                       && CacheView() == old(CacheView()))
        && (k.Ok? ==> (res.Ok? <==> (Lower(name), k.value) in reportedResults))
        && (k.Ok? && res.Err? ==> res.error == ReportFailed(Lower(name)))
        && (k.Ok? && old(ResultsCached(k.value)) ==>
              && runLog == old(runLog) && CacheView() == old(CacheView())
              && loadLog == old(loadLog) + [LoadCall(k.value, old(Cache.Load(settings, CacheView(), k.value, Results)).value)]
              && (res.Ok? ==> res.value == old(Cache.Load(settings, CacheView(), k.value, Results)).value))
        && (k.Ok? && !old(ResultsCached(k.value)) ==>
              && loadLog == old(loadLog)
              && |runLog| == |old(runLog)| + 1
              && runLog[|runLog| - 1].instance.key == k.value
              && (res.Ok? ==> res.value == ResultOf(runLog[|runLog| - 1].output))
              && (res.Ok? && Cacheable(registry, k.value, Results) ==>
                    Slot(k.value, Results) in localCache && localCache[Slot(k.value, Results)] == res.value))
        && (k.Ok? && !ResultCachingEnabled(registry, Lower(name)) ==> |runLog| == |old(runLog)| + 1)
    {
      var n := Lower(name);
      var key :- ModuleKeyOf(registry, rank, cfg.localHash, hashMapping, n);
      res := ResultsForKey(n, key, None);
      LowerIdempotent(name);
    }

    /**
     * getResults: the results of one module, or of a list of modules (default: run_queue).
     * For a list, every answer is the output of a run of that module's key or a cache
     * hit on it, and each distinct name costs exactly one run or one hit.
     */
    method GetResults(cfg: Config, request: NameRequest) returns (res: Result<Answer, Error>, ghost hits: map<string, bool>)
      requires Valid()
      modifies this`localCache, this`currentResultKeys, this`disk, this`currentModules, this`instancesCreated,
               this`reportedResults, this`runLog, this`reportLog, this`loadLog
      ensures Valid()
      ensures old(reportedResults) <= reportedResults
      ensures old(runLog) <= runLog && old(loadLog) <= loadLog
      ensures request.Unsupported? ==> res == Err(BadNameType) && runLog == old(runLog) && loadLog == old(loadLog)
      ensures request.Given? && request.arg.Single? ==>
        var n := Lower(request.arg.name);
        var k := ModuleKeyOf(registry, rank, cfg.localHash, hashMapping, n);
        && (res.Ok? ==> res.value.One?)
        && (k.Err? ==> res == Err(UnknownModule(n)) && runLog == old(runLog))
        && (k.Ok? ==> (res.Ok? <==> (n, k.value) in reportedResults))
        && (k.Ok? && res.Err? ==> res.error == ReportFailed(n))
        && (k.Ok? && old(ResultsCached(k.value)) ==>
              && runLog == old(runLog)
              && (res.Ok? ==> res.value.result == old(Cache.Load(settings, CacheView(), k.value, Results)).value))
        && (k.Ok? && !old(ResultsCached(k.value)) ==>
              && |runLog| == |old(runLog)| + 1
              && runLog[|runLog| - 1].instance.key == k.value
              && (res.Ok? ==> res.value.result == ResultOf(runLog[|runLog| - 1].output))
              && (res.Ok? && Cacheable(registry, k.value, Results) ==>
                    Slot(k.value, Results) in localCache && localCache[Slot(k.value, Results)] == res.value.result))
        && (k.Ok? && !ResultCachingEnabled(registry, n) ==> |runLog| == |old(runLog)| + 1)
      ensures !request.Unsupported? && !(request.Given? && request.arg.Single?) ==>
        var names := LowerAll(RequestedNames(cfg, request));
        && (res.Err? ==>
              exists n :: n in names && ((res.error == UnknownModule(n) && n !in registry) || res.error == ReportFailed(n)))
        && (res.Ok? ==>
              && res.value.Collected?
              && res.value.order == Dedup(names)
              && (forall n :: n in res.value.results <==> n in res.value.order)
              && Answered(cfg, res.value.results, hits, reportedResults, runLog[|old(runLog)|..], loadLog[|old(loadLog)|..])
              && (|runLog| - |old(runLog)|) + (|loadLog| - |old(loadLog)|) == |res.value.order|
              && (forall n :: n in res.value.results && n in registry && FileCached(KeyOf(cfg, n), old(disk)) ==>
                    n in hits && hits[n] && NoRunOf(KeyOf(cfg, n), runLog[|old(runLog)|..])))
    {
      hits := map[];
      match request {
        case Unsupported =>
          return Err(BadNameType), hits;
        case Given(Single(s)) =>
          var r := ResultsFor(cfg, s);
          if r.Err? {
            return Err(r.error), hits;
          }
          return Ok(One(r.value)), hits;
        case _ =>
      }
      ghost var requested := RequestedNames(cfg, request);
      var lowered := LowerAll(RequestedNames(cfg, request));
      var collected;
      collected, hits := CollectAll(cfg, lowered, requested);
      if collected.Err? {
        return Err(collected.error), hits;
      }
      return Ok(Collected(collected.value.0, collected.value.1)), hits;
    }

    /**
     * The loop of getResults over a list: each lower-cased name not collected yet gets
     * its result; the first failure ends the request. hits tells, for each collected
     * name, whether it was answered from the cache.
     */
    method CollectAll(cfg: Config, lowered: seq<string>, ghost requested: seq<string>)
      returns (res: Result<(seq<string>, map<string, Obj>), Error>, ghost hits: map<string, bool>)
      requires Valid() && lowered == LowerAll(requested)
      modifies this`localCache, this`currentResultKeys, this`disk, this`currentModules, this`instancesCreated,
               this`reportedResults, this`runLog, this`reportLog, this`loadLog
      ensures Valid()
      ensures old(reportedResults) <= reportedResults
      ensures old(runLog) <= runLog && old(loadLog) <= loadLog
      ensures res.Err? ==>
        exists n :: n in lowered && ((res.error == UnknownModule(n) && n !in registry) || res.error == ReportFailed(n))
      ensures res.Ok? ==>
        var (order, results) := res.value;
        && order == Dedup(lowered)
        && (forall n :: n in results <==> n in order)
        && Answered(cfg, results, hits, reportedResults, runLog[|old(runLog)|..], loadLog[|old(loadLog)|..])
        && (|runLog| - |old(runLog)|) + (|loadLog| - |old(loadLog)|) == |order|
        && (forall n :: n in results && n in registry && FileCached(KeyOf(cfg, n), old(disk)) ==>
              n in hits && hits[n] && NoRunOf(KeyOf(cfg, n), runLog[|old(runLog)|..]))
    {
      var order: seq<string> := [];
      var results: map<string, Obj> := map[];
      hits := map[];
      for i := 0 to |lowered|
        invariant Valid()
        invariant Collecting(cfg, lowered, i, order, results, hits, old(runLog), old(loadLog), old(reportedResults), old(disk),
                             runLog, loadLog, reportedResults, disk)
      {
        var r;
        r, hits := CollectStep(cfg, lowered, requested, i, order, results, hits,
                               old(runLog), old(loadLog), old(reportedResults), old(disk));
        if r.Err? {
          assert lowered[i] in lowered;
          return Err(r.error), hits;
        }
        order, results := r.value.0, r.value.1;
      }
      assert lowered[..|lowered|] == lowered;
      res := Ok((order, results));
      forall n | n in results && n in registry && FileCached(KeyOf(cfg, n), old(disk))
        ensures n in hits && hits[n] && NoRunOf(KeyOf(cfg, n), runLog[|old(runLog)|..])
      {
        assert Served(registry, n, KeyOf(cfg, n), results[n], hits[n], runLog[|old(runLog)|..], loadLog[|old(loadLog)|..]);
      }
    }

    /**
     * The state of the getResults list loop after the first i names, with the logs, the
     * reported pairs and the disk at runs, loads, reported and disk: the collected names
     * are those names de-duplicated, each answered since the logs stood at runs0 and
     * loads0, with exactly one run or load per collected name; the disk only grew from
     * disk0, and a name whose results file disk0 held was answered from the cache.
     */
    ghost predicate Collecting(cfg: Config, lowered: seq<string>, i: nat, order: seq<string>, results: map<string, Obj>,
                               hits: map<string, bool>, runs0: seq<RunCall>, loads0: seq<LoadCall>,
                               reported0: set<(string, ModuleKey)>, disk0: map<string, Obj>,
                               runs: seq<RunCall>, loads: seq<LoadCall>,
                               reported: set<(string, ModuleKey)>, disk: map<string, Obj>)
    {
      && Ranked(registry, rank)
      && i <= |lowered|
      && reported0 <= reported && runs0 <= runs && loads0 <= loads
      && disk0.Keys <= disk.Keys
      && order == Dedup(lowered[..i])
      && (forall n :: n in results <==> n in order)
      && Answered(cfg, results, hits, reported, runs[|runs0|..], loads[|loads0|..])
      && (|runs| - |runs0|) + (|loads| - |loads0|) == |order|
      && (forall n :: n in results && n in registry && FileCached(KeyOf(cfg, n), disk0) ==> n in hits && hits[n])
    }

    /**
     * The answers collected since runs0 and loads0 stay answered when a new name n is
     * served by the runs and hits that come after runs and loads, all of n's key.
     */
    lemma AnsweredAfterStep(cfg: Config, results: map<string, Obj>, hits: map<string, bool>, n: string, v: Obj, hit: bool,
                            reported: set<(string, ModuleKey)>, reported2: set<(string, ModuleKey)>,
                            runs0: seq<RunCall>, loads0: seq<LoadCall>, runs: seq<RunCall>, loads: seq<LoadCall>,
                            runs2: seq<RunCall>, loads2: seq<LoadCall>)
      requires Ranked(registry, rank)
      requires runs0 <= runs && loads0 <= loads
      requires Answered(cfg, results, hits, reported, runs[|runs0|..], loads[|loads0|..])
      requires n !in results && n in registry
      requires reported <= reported2 && runs <= runs2 && loads <= loads2
      requires (n, KeyOf(cfg, n)) in reported2
      requires forall j :: |runs| <= j < |runs2| ==> runs2[j].instance.key == KeyOf(cfg, n)
      requires forall j :: |loads| <= j < |loads2| ==> loads2[j].key == KeyOf(cfg, n)
      requires Served(registry, n, KeyOf(cfg, n), v, hit, runs2[|runs|..], loads2[|loads|..])
      ensures Answered(cfg, results[n := v], hits[n := hit], reported2, runs2[|runs0|..], loads2[|loads0|..])
    {
      var k := KeyOf(cfg, n);
      assert k.name == n;
      forall j | |runs0| <= j < |runs| ensures runs2[j].instance.key != k {
        assert runs2[j] == runs[|runs0|..][j - |runs0|];
      }
      forall j | |loads0| <= j < |loads| ensures loads2[j].key != k {
        assert loads2[j] == loads[|loads0|..][j - |loads0|];
      }
      SlicePrefix(runs0, runs, runs2);
      SlicePrefix(loads0, loads, loads2);
      ServedInLongerTail(registry, n, k, v, hit, runs2, loads2, |runs0|, |runs|, |loads0|, |loads|);
      forall j | |runs[|runs0|..]| <= j < |runs2[|runs0|..]| ensures runs2[|runs0|..][j].instance.key == k {
        assert runs2[|runs0|..][j] == runs2[j + |runs0|];
      }
      forall j | |loads[|loads0|..]| <= j < |loads2[|loads0|..]| ensures loads2[|loads0|..][j].key == k {
        assert loads2[|loads0|..][j] == loads2[j + |loads0|];
      }
      AnsweredExtend(cfg, results, hits, n, v, hit, reported, reported2,
                     runs[|runs0|..], loads[|loads0|..], runs2[|runs0|..], loads2[|loads0|..]);
    }

    /** A name whose results file was on disk at the start stays recorded as a hit when one more name is collected. */
    lemma FileHitsStep(cfg: Config, results: map<string, Obj>, hits: map<string, bool>, n: string, v: Obj, hit: bool,
                       disk0: map<string, Obj>, disk: map<string, Obj>)
      requires Ranked(registry, rank) && n in registry && disk0.Keys <= disk.Keys
      requires forall m :: m in results && m in registry && FileCached(KeyOf(cfg, m), disk0) ==> m in hits && hits[m]
      requires FileCached(KeyOf(cfg, n), disk) ==> hit
      ensures forall m :: m in results[n := v] && m in registry && FileCached(KeyOf(cfg, m), disk0) ==>
        m in hits[n := hit] && hits[n := hit][m]
    {
      forall m | m in results[n := v] && m in registry && FileCached(KeyOf(cfg, m), disk0)
        ensures m in hits[n := hit] && hits[n := hit][m]
      {
        if m == n {
          assert FileCached(KeyOf(cfg, n), disk);
        }
      }
    }

    /** The loop state from its parts. */
    lemma CollectingIntro(cfg: Config, lowered: seq<string>, i: nat, order: seq<string>, results: map<string, Obj>,
                          hits: map<string, bool>, runs0: seq<RunCall>, loads0: seq<LoadCall>,
                          reported0: set<(string, ModuleKey)>, disk0: map<string, Obj>,
                          runs: seq<RunCall>, loads: seq<LoadCall>,
                          reported: set<(string, ModuleKey)>, disk: map<string, Obj>)
      requires Ranked(registry, rank) && i <= |lowered|
      requires reported0 <= reported && runs0 <= runs && loads0 <= loads && disk0.Keys <= disk.Keys
      requires order == Dedup(lowered[..i]) && (forall n :: n in results <==> n in order)
      requires Answered(cfg, results, hits, reported, runs[|runs0|..], loads[|loads0|..])
      requires (|runs| - |runs0|) + (|loads| - |loads0|) == |order|
      requires forall n :: n in results && n in registry && FileCached(KeyOf(cfg, n), disk0) ==> n in hits && hits[n]
      ensures Collecting(cfg, lowered, i, order, results, hits, runs0, loads0, reported0, disk0, runs, loads, reported, disk)
    {
    }

    /**
     * The loop state moves from i to i + 1 when name i is new and gets the value v with
     * one run or hit of its key, the hit exactly when hit says so (which a results file
     * on disk forces).
     */
    lemma CollectingExtend(cfg: Config, lowered: seq<string>, i: nat, order: seq<string>, results: map<string, Obj>,
                           hits: map<string, bool>, runs0: seq<RunCall>, loads0: seq<LoadCall>,
                           reported0: set<(string, ModuleKey)>, disk0: map<string, Obj>,
                           runs: seq<RunCall>, loads: seq<LoadCall>, reported: set<(string, ModuleKey)>, disk: map<string, Obj>,
                           v: Obj, hit: bool,
                           runs2: seq<RunCall>, loads2: seq<LoadCall>, reported2: set<(string, ModuleKey)>, disk2: map<string, Obj>)
      requires Ranked(registry, rank) && i < |lowered| && lowered[i] !in results && lowered[i] in registry
      requires reported0 <= reported && runs0 <= runs && loads0 <= loads && disk0.Keys <= disk.Keys
      requires order == Dedup(lowered[..i]) && (forall n :: n in results <==> n in order)
      requires Answered(cfg, results, hits, reported, runs[|runs0|..], loads[|loads0|..])
      requires (|runs| - |runs0|) + (|loads| - |loads0|) == |order|
      requires forall n :: n in results && n in registry && FileCached(KeyOf(cfg, n), disk0) ==> n in hits && hits[n]
      requires reported <= reported2 && runs <= runs2 && loads <= loads2 && disk.Keys <= disk2.Keys
      requires (lowered[i], KeyOf(cfg, lowered[i])) in reported2
      requires (|runs2| - |runs|) + (|loads2| - |loads|) == 1
      requires forall j :: |runs| <= j < |runs2| ==> runs2[j].instance.key == KeyOf(cfg, lowered[i])
      requires forall j :: |loads| <= j < |loads2| ==> loads2[j].key == KeyOf(cfg, lowered[i])
      requires Served(registry, lowered[i], KeyOf(cfg, lowered[i]), v, hit, runs2[|runs|..], loads2[|loads|..])
      requires FileCached(KeyOf(cfg, lowered[i]), disk) ==> hit
      ensures Collecting(cfg, lowered, i + 1, order + [lowered[i]], results[lowered[i] := v], hits[lowered[i] := hit],
                         runs0, loads0, reported0, disk0, runs2, loads2, reported2, disk2)
    {
      var n := lowered[i];
      DedupPrefixStep(lowered, i);
      AnsweredAfterStep(cfg, results, hits, n, v, hit, reported, reported2, runs0, loads0, runs, loads, runs2, loads2);
      var order2, results2, hits2 := order + [n], results[n := v], hits[n := hit];
      assert order2 == Dedup(lowered[..i + 1]);
      FileHitsStep(cfg, results, hits, n, v, hit, disk0, disk);
      CollectingIntro(cfg, lowered, i + 1, order2, results2, hits2, runs0, loads0, reported0, disk0,
                      runs2, loads2, reported2, disk2);
    }

    /**
     * One iteration of the getResults list loop: name i is skipped when already
     * collected, and otherwise gets its result, from the cache exactly when it was
     * cached when the loop reached it; the loop state moves from i to i + 1.
     */
    method CollectStep(cfg: Config, lowered: seq<string>, ghost requested: seq<string>, i: nat,
                       order: seq<string>, results: map<string, Obj>, ghost hits: map<string, bool>,
                       ghost runs0: seq<RunCall>, ghost loads0: seq<LoadCall>, ghost reported0: set<(string, ModuleKey)>,
                       ghost disk0: map<string, Obj>)
      returns (res: Result<(seq<string>, map<string, Obj>), Error>, ghost hits2: map<string, bool>)
      requires Valid() && lowered == LowerAll(requested) && i < |lowered|
      requires Collecting(cfg, lowered, i, order, results, hits, runs0, loads0, reported0, disk0,
                          runLog, loadLog, reportedResults, disk)
      modifies this`localCache, this`currentResultKeys, this`disk, this`currentModules, this`instancesCreated,
               this`reportedResults, this`runLog, this`reportLog, this`loadLog
      ensures Valid()
      ensures reported0 <= reportedResults && runs0 <= runLog && loads0 <= loadLog
      ensures res.Err? ==>
        (res.error == UnknownModule(lowered[i]) && lowered[i] !in registry) || res.error == ReportFailed(lowered[i])
      ensures res.Ok? ==>
        Collecting(cfg, lowered, i + 1, res.value.0, res.value.1, hits2, runs0, loads0, reported0, disk0,
                   runLog, loadLog, reportedResults, disk)
      ensures res.Ok? && lowered[i] !in results ==>
        && lowered[i] in registry && lowered[i] in hits2
        && (hits2[lowered[i]] <==> old(ResultsCached(KeyOf(cfg, lowered[i]))))
    {
      var n := lowered[i];
      hits2 := hits;
      if n in results {
        DedupPrefixStep(lowered, i);
        return Ok((order, results)), hits2;
      }
      ghost var runs, loads, reported, diskBefore := runLog, loadLog, reportedResults, disk;
      ghost var hit := n in registry && ResultsCached(KeyOf(cfg, n));
      assert n in registry ==> FileCached(KeyOf(cfg, n), diskBefore) ==> hit;
      var r := CollectOne(cfg, n, requested[i]);
      if r.Err? {
        return Err(r.error), hits2;
      }
      CollectingExtend(cfg, lowered, i, order, results, hits, runs0, loads0, reported0, disk0,
                       runs, loads, reported, diskBefore, r.value, hit, runLog, loadLog, reportedResults, disk);
      hits2 := hits[n := hit];
      return Ok((order + [n], results[n := r.value])), hits2;
    }

    /**
     * One new name of a getResults list (n is the lower-cased form of the requested
     * name): its result, from one hit when it was cached and otherwise from one run,
     * both of n's key; earlier answers stay served.
     */
    method CollectOne(cfg: Config, n: string, ghost requested: string) returns (res: Result<Obj, Error>)
      requires Valid() && n == Lower(requested)
      modifies this`localCache, this`currentResultKeys, this`disk, this`currentModules, this`instancesCreated,
               this`reportedResults, this`runLog, this`reportLog, this`loadLog
      ensures Valid()
      ensures old(reportedResults) <= reportedResults
      ensures old(runLog) <= runLog && old(loadLog) <= loadLog
      ensures old(disk.Keys) <= disk.Keys
      ensures (|runLog| - |old(runLog)|) + (|loadLog| - |old(loadLog)|) <= 1
      ensures n in registry && old(ResultsCached(KeyOf(cfg, n))) ==>
        runLog == old(runLog) && |loadLog| == |old(loadLog)| + 1
      ensures n in registry && !old(ResultsCached(KeyOf(cfg, n))) ==>
        loadLog == old(loadLog) && |runLog| == |old(runLog)| + 1
      ensures n in registry ==>
        && (forall j :: |old(runLog)| <= j < |runLog| ==> runLog[j].instance.key == KeyOf(cfg, n))
        && (forall j :: |old(loadLog)| <= j < |loadLog| ==> loadLog[j].key == KeyOf(cfg, n))
      ensures res.Err? ==> (res.error == UnknownModule(n) && n !in registry) || res.error == ReportFailed(n)
      ensures res.Ok? ==>
        && n in registry && (n, KeyOf(cfg, n)) in reportedResults
        && (|runLog| - |old(runLog)|) + (|loadLog| - |old(loadLog)|) == 1
        && Served(registry, n, KeyOf(cfg, n), res.value, old(ResultsCached(KeyOf(cfg, n))),
                  runLog[|old(runLog)|..], loadLog[|old(loadLog)|..])
    {
      res := ResultsFor(cfg, n);
      LowerIdempotent(requested);
      if res.Ok? {
        var k := KeyOf(cfg, n);
        var runs, loads := runLog[|old(runLog)|..], loadLog[|old(loadLog)|..];
        if |runLog| == |old(runLog)| + 1 {
          assert runs[0] == runLog[|runLog| - 1];
        } else {
          assert loads[0] == loadLog[|loadLog| - 1];
        }
      }
    }

    /** getModule: the live instance of a module (lower-cased name), given its current results. */
    method GetModule(cfg: Config, name: string) returns (res: Result<Instance, Error>)
      requires Valid()
      modifies this`localCache, this`currentResultKeys, this`disk, this`currentModules, this`instancesCreated,
               this`reportedResults, this`runLog, this`reportLog, this`loadLog
      ensures Valid()
      ensures var n := Lower(name);
        var k := ModuleKeyOf(registry, rank, cfg.localHash, hashMapping, n);
        && (k.Err? ==> res == Err(k.error) && runLog == old(runLog))
        && (k.Ok? ==> (res.Ok? <==> (n, k.value) in reportedResults))
        && (k.Ok? && res.Err? ==> res.error == ReportFailed(n))
        && (res.Ok? ==> k.Ok? && res.value.name == n && res.value.key == k.value && n in currentModules
                        && currentModules[n] == (k.value, res.value) && res.value.localResults.Some?)
        && (k.Ok? && old(n in currentModules) ==>
              n in currentModules &&
              (currentModules[n].1.serial == old(currentModules[n].1.serial) <==> old(currentModules[n].0) == k.value))
        && (k.Ok? && old(ResultsCached(k.value)) ==>
              && runLog == old(runLog)
              && (res.Ok? ==> res.value.localResults.value == old(Cache.Load(settings, CacheView(), k.value, Results)).value))
        && (k.Ok? && !old(ResultsCached(k.value)) ==>
              && |runLog| == |old(runLog)| + 1
              && runLog[|runLog| - 1].instance.key == k.value
              && (res.Ok? ==> && runLog[|runLog| - 1].instance.serial == res.value.serial
                              && res.value.localResults.value == ResultOf(runLog[|runLog| - 1].output)))
    {
      var n := Lower(name);
      var key :- ModuleKeyOf(registry, rank, cfg.localHash, hashMapping, n);
      var got := ModuleForKey(n, key);
      LowerIdempotent(name);
      if got.Err? {
        return Err(got.error);
      }
      return Ok(got.value.0);
    }

    /** inCommonObjectCache. */
    method InCommonObjectCache(name: string, key: string) returns (present: bool)
      ensures present == InPool(commonObjects, name, key)
      ensures present ==> Get(commonObjects, name, key).Ok?
    {
      if name !in commonObjects {
        return false;
      }
      return key in commonObjects[name];
    }

    /** getCommonObject: the pooled object, or a failure when it is absent. */
    method GetCommonObject(name: string, key: string) returns (res: Result<Obj, Error>)
      ensures res == Get(commonObjects, name, key)
      ensures res.Ok? ==> Entry(commonObjects[name][key].persistent, res.value) == commonObjects[name][key]
    {
      var present := InCommonObjectCache(name, key);
      if !present {
        return Err(NotInPool);
      }
      return Ok(commonObjects[name][key].obj);
    }

    /**
     * saveToCommonObjectCache: purge the pool's non-persistent entries, then store the
     * object (or the creation function's) under the key.
     */
    method SaveToCommonObjectCache(name: string, key: string, obj: Option<Obj>, persistent: bool,
                                   creation: Option<() -> Obj>) returns (res: Result<Obj, Error>)
      requires PoolsValid()
      modifies this`commonObjects
      ensures PoolsValid()
      ensures (commonObjects, res) == Store(old(commonObjects), name, key, obj, persistent, creation)
    {
      if name !in commonObjects {
        commonObjects := commonObjects[name := map[]];
      }
      ghost var before := commonObjects[name];
      assert before == PoolOf(old(commonObjects), name);
      var items := commonObjects[name].Keys;
      while items != {}
        invariant name in commonObjects
        invariant items <= before.Keys
        invariant forall k :: k in commonObjects[name] ==> k in before && commonObjects[name][k] == before[k]
        invariant forall k :: k in before ==> (k in commonObjects[name] <==> k in items || before[k].persistent)
        invariant commonObjects == old(commonObjects)[name := commonObjects[name]]
        decreases items
      {
        var k :| k in items;
        if !commonObjects[name][k].persistent {
          commonObjects := commonObjects[name := commonObjects[name] - {k}];
        }
        items := items - {k};
      }
      assert commonObjects[name] == Purge(before);
      // The source binds each item's object to the parameter's name in the loop above;
      // here the parameter keeps its value (CommonPool.StoreAsWritten models the rebinding).
      var o: Obj;
      if obj.Some? {
        o := obj.value;
      } else if creation.Some? {
        o := creation.value();
      } else {
        StoreSpec(old(commonObjects), name, key, obj, persistent, creation);
        return Err(NoCreationFunction);
      }
      commonObjects := commonObjects[name := commonObjects[name][key := Entry(persistent, o)]];
      assert commonObjects == old(commonObjects)[name := Purge(before)[key := Entry(persistent, o)]];
      StoreSpec(old(commonObjects), name, key, obj, persistent, creation);
      return Ok(o);
    }
  }
}

=== FILE: names.dfy ===
/**
 * Normalisation of requested module names: lower-casing and de-duplication in
 * order of first occurrence.
 */
module Names {

  predicate IsUpper(c: char) { 'A' <= c <= 'Z' }

  /** ASCII lower-casing of one character. */
  function LowerChar(c: char): (d: char)
    ensures !IsUpper(d)
    ensures IsUpper(c) ==> d as int == c as int + 32
    ensures !IsUpper(c) ==> d == c
  {
    if IsUpper(c) then (c as int + 32) as char else c
  }

  /** The lower-cased name, character by character. */
  function Lower(s: string): (r: string)
    ensures |r| == |s|
    ensures forall c :: c in r ==> !IsUpper(c)
    ensures forall i :: 0 <= i < |s| ==>
      && (IsUpper(s[i]) ==> r[i] as int == s[i] as int + 32)
      && (!IsUpper(s[i]) ==> r[i] == s[i])
  {
    seq(|s|, i requires 0 <= i < |s| => LowerChar(s[i]))
  }

  /** Lower-casing twice is lower-casing once: a normalised name is a fixed point. */
  lemma LowerIdempotent(s: string)
    ensures Lower(Lower(s)) == Lower(s)
  {
    var once := Lower(s);
    forall i | 0 <= i < |once|
      ensures Lower(once)[i] == once[i]
    {
      assert once[i] in once;
    }
  }

  /** Every name of the list, lower-cased, in the same order. */
  function LowerAll(names: seq<string>): (r: seq<string>)
    ensures |r| == |names|
    ensures forall i :: 0 <= i < |r| ==> r[i] == Lower(names[i])
  {
    seq(|names|, i requires 0 <= i < |names| => Lower(names[i]))
  }

  /** The list with every repeated name dropped after its first occurrence. */
  function Dedup(s: seq<string>): (r: seq<string>)
    ensures |r| <= |s|
    ensures forall x :: x in r ==> x in s
  {
    if s == [] then []
    else
      var p := Dedup(s[..|s| - 1]);
      if s[|s| - 1] in p then p else p + [s[|s| - 1]]
  }

  /** One more name of s adds that name to the de-duplicated prefix when it is new. */
  lemma DedupPrefixStep(s: seq<string>, i: nat)
    requires i < |s|
    ensures Dedup(s[..i + 1]) == if s[i] in Dedup(s[..i]) then Dedup(s[..i]) else Dedup(s[..i]) + [s[i]]
  {
    assert s[..i + 1][..i] == s[..i];
  }

  predicate NoDuplicates(r: seq<string>)
  {
    forall i, j :: 0 <= i < j < |r| ==> r[i] != r[j]
  }

  /** Every occurrence in s of the later name is preceded in s by the earlier name. */
  predicate InFirstOccurrenceOrder(r: seq<string>, s: seq<string>)
  {
    forall i, j, k :: 0 <= i < j < |r| && 0 <= k < |s| && s[k] == r[j] ==> r[i] in s[..k]
  }

  /**
   * Dedup keeps exactly the names of s, each once, ordered by where each first
   * occurs in s. These three properties determine the result.
   */
  lemma {:induction false} DedupSpec(s: seq<string>)
    ensures NoDuplicates(Dedup(s))
    ensures forall x :: x in Dedup(s) <==> x in s
    ensures InFirstOccurrenceOrder(Dedup(s), s)
  {
    if s != [] {
      var p := s[..|s| - 1];
      var x := s[|s| - 1];
      assert s == p + [x];
      DedupSpec(p);
      var dp := Dedup(p);
      var r := Dedup(s);
      forall y
        ensures y in r <==> y in s
      {
        assert y in s <==> y in p || y == x;
      }
      forall i, j, k | 0 <= i < j < |r| && 0 <= k < |s| && s[k] == r[j]
        ensures r[i] in s[..k]
      {
        assert r[i] in dp;
        assert r[i] in p;
        if k < |p| {
          assert s[..k] == p[..k];
        } else {
          assert s[..k] == p;
        }
      }
    }
  }
}

=== FILE: objects.dfy ===
/**
 * Cached payloads. A payload is either a configuration-style tree (a TreeDict in
 * the source: a name and named fields) or any other value, which this model calls
 * a scalar. Before a payload goes to disk, a scalar is wrapped in a one-field tree;
 * on load such a wrapper is unwrapped again.
 */
module Objects {

  datatype Obj = Scalar(atom: int) | Tree(treeName: string, fields: map<string, Obj>)

  /** The tree name the save path gives to the scalar wrapper. */
  const WrapperName: string := "__ValueWrapper__"

  /** The tree name the disk-load path of loadFromCache compares against. */
  const LoadCheckedName: string := "ValueWrapper"

  /** The frozen empty tree that stands in for a module whose run() returned nothing. */
  const EmptyResult: Obj := Tree("", map[])

  /** Wrapping for disk: trees are written as they are, anything else inside a wrapper. */
  function Wrap(v: Obj): (t: Obj)
    ensures t.Tree?
  {
    if v.Tree? then v else Tree(WrapperName, map["value" := v])
  }

  /** True when a persisted tree has the shape of a wrapper carrying the given tag. */
  predicate LooksWrapped(t: Obj, tag: string)
  {
    t.Tree? && t.treeName == tag && |t.fields| == 1 && "value" in t.fields
  }

  /** Unwrapping as loadFromCache writes it: it checks the tag "ValueWrapper". */
  function UnwrapAsWritten(t: Obj): (r: Obj)
    ensures r == t <==> !LooksWrapped(t, LoadCheckedName)
    ensures t.Scalar? ==> r == t
  {
    if LooksWrapped(t, LoadCheckedName) then SmallerField(t); t.fields["value"] else t
  }

  /** Unwrapping with the tag the save path writes (the one _loadFromCache also checks). */
  function Unwrap(t: Obj): (r: Obj)
    ensures r == t <==> !LooksWrapped(t, WrapperName)
    ensures t.Scalar? ==> r == t
  {
    if LooksWrapped(t, WrapperName) then SmallerField(t); t.fields["value"] else t
  }

  /** As written, no scalar survives a trip to disk: it comes back as its wrapper tree. */
  lemma ScalarRoundTripFailsAsWritten(v: Obj)
    requires v.Scalar?
    ensures UnwrapAsWritten(Wrap(v)) != v
    ensures UnwrapAsWritten(Wrap(v)) == Tree(WrapperName, map["value" := v])
  {
    assert !LooksWrapped(Wrap(v), LoadCheckedName) by {
      assert WrapperName != LoadCheckedName by { assert WrapperName[0] != LoadCheckedName[0]; }
    }
  }

  /**
   * With matching tags, every payload survives a trip to disk except a tree that
   * itself has the exact shape of a wrapper, which is unwrapped one level.
   */
  lemma RoundTrip(v: Obj)
    ensures Unwrap(Wrap(v)) == v <==> !LooksWrapped(v, WrapperName)
  {
    if v.Scalar? {
      assert Wrap(v).fields == map["value" := v];
      assert |Wrap(v).fields| == 1;
      assert LooksWrapped(Wrap(v), WrapperName);
    } else if LooksWrapped(v, WrapperName) {
      assert v.fields["value"] != v by { SmallerField(v); }
    }
  }

  /** A field of a tree is structurally smaller than the tree, so never equal to it. */
  lemma SmallerField(t: Obj)
    requires t.Tree? && "value" in t.fields
    ensures t.fields["value"] != t
  {
    assert t.fields["value"] < t;
  }
}

=== FILE: pool.dfy ===
/**
 * The common-object pool: shared objects (database handles and the like) kept per
 * pool name and key, each marked persistent or not. Every store first purges the
 * pool's non-persistent entries, so a pool holds at most one of them at a time.
 */
module CommonPool {
  import opened Wrappers
  import opened Errors
  import opened Objects

  datatype Entry = Entry(persistent: bool, obj: Obj)

  /** One pool: key to entry. */
  type Pool = map<string, Entry>

  /** All pools, by pool name. */
  type Pools = map<string, Pool>

  /** The pool under a name, empty when there is none yet (setdefault). */
  function PoolOf(pools: Pools, name: string): Pool
  {
    if name in pools then pools[name] else map[]
  }

  /** The pool with its non-persistent entries removed. */
  function Purge(pool: Pool): Pool
  {
    map k | k in pool && pool[k].persistent :: pool[k]
  }

  predicate InPool(pools: Pools, name: string, key: string)
  {
    name in pools && key in pools[name]
  }

  /** The pooled object, or an error when (name, key) is absent. */
  function Get(pools: Pools, name: string, key: string): (r: Result<Obj, Error>)
    ensures r.Ok? <==> InPool(pools, name, key)
    ensures r.Err? ==> r.error == NotInPool
  {
    if InPool(pools, name, key) then Ok(pools[name][key].obj) else Err(NotInPool)
  }

  /** The object to store: the one given, else the creation function's, else an error. */
  function Chosen(obj: Option<Obj>, creation: Option<() -> Obj>): Result<Obj, Error>
  {
    if obj.Some? then Ok(obj.value)
    else if creation.Some? then Ok(creation.value())
    else Err(NoCreationFunction)
  }

  /**
   * Storing (name, key): purge the pool's non-persistent entries, then install the
   * object (made by the creation function when none is given) with its persistence
   * flag. The result is the new pools and the stored object or the error.
   */
  function Store(pools: Pools, name: string, key: string, obj: Option<Obj>, persistent: bool,
                 creation: Option<() -> Obj>): (r: (Pools, Result<Obj, Error>))
    ensures name in r.0
    ensures forall n :: n in pools && n != name ==> n in r.0 && r.0[n] == pools[n]
    ensures r.1.Ok? ==> key in r.0[name] && r.0[name][key] == Entry(persistent, r.1.value)
  {
    var purged := Purge(PoolOf(pools, name));
    match Chosen(obj, creation)
    case Ok(o) => (pools[name := purged[key := Entry(persistent, o)]], Ok(o))
    case Err(e) => (pools[name := purged], Err(e))
  }

  /** Every key of the pool listed once: an iteration order of its items. */
  predicate ListsKeys(pool: Pool, order: seq<string>)
  {
    && (forall k :: k in pool ==> k in order)
    && (forall k :: k in order ==> k in pool)
    && (forall i, j :: 0 <= i < j < |order| ==> order[i] != order[j])
  }

  /**
   * The object the source goes on with after its purge loop, which binds each item's
   * object to the same name as the parameter: the object of the last item iterated,
   * or the parameter when the pool was empty.
   */
  function ReboundByLoop(pool: Pool, order: seq<string>, obj: Option<Obj>): Option<Obj>
    requires ListsKeys(pool, order)
  {
    if |order| == 0 then obj else Some(pool[order[|order| - 1]].obj)
  }

  /** saveToCommonObjectCache as written, for the given iteration order of the pool's items. */
  function StoreAsWritten(pools: Pools, name: string, key: string, obj: Option<Obj>, persistent: bool,
                          creation: Option<() -> Obj>, order: seq<string>): (r: (Pools, Result<Obj, Error>))
    requires ListsKeys(PoolOf(pools, name), order)
    ensures |order| > 0 ==> r.1 == Ok(PoolOf(pools, name)[order[|order| - 1]].obj)
    ensures |order| == 0 && obj.Some? ==> r.1 == Ok(obj.value)
  {
    Store(pools, name, key, ReboundByLoop(PoolOf(pools, name), order, obj), persistent, creation)
  }

  /** At most one non-persistent entry in a pool. */
  predicate AtMostOneTransient(pool: Pool)
  {
    forall a, b :: a in pool && b in pool && !pool[a].persistent && !pool[b].persistent ==> a == b
  }

  /**
   * After a store: (name, key) holds the chosen object with the given flag and can be
   * read back; every earlier non-persistent entry of that pool is gone; persistent
   * entries and all other pools are kept; the pool has at most one non-persistent entry.
   */
  lemma StoreSpec(pools: Pools, name: string, key: string, obj: Option<Obj>, persistent: bool,
                  creation: Option<() -> Obj>)
    ensures var (after, r) := Store(pools, name, key, obj, persistent, creation);
      && (r.Ok? <==> obj.Some? || creation.Some?)
      && (obj.Some? ==> r == Ok(obj.value))
      && (obj.None? && creation.Some? ==> r == Ok(creation.value()))
      && (r.Ok? ==> InPool(after, name, key) && after[name][key] == Entry(persistent, r.value)
                    && Get(after, name, key) == r)
      && (r.Err? ==> r.error == NoCreationFunction)
      && name in after
      && (forall k :: k in PoolOf(pools, name) && !PoolOf(pools, name)[k].persistent && k != key ==> k !in after[name])
      && (forall k :: k in PoolOf(pools, name) && PoolOf(pools, name)[k].persistent && k != key ==>
            k in after[name] && after[name][k] == PoolOf(pools, name)[k])
      && (forall k :: k in after[name] ==> k == key || k in PoolOf(pools, name))
      && (forall other :: other != name ==> PoolOf(after, other) == PoolOf(pools, other))
      && AtMostOneTransient(after[name])
  {
  }

  /**
   * As written, a store into a pool that already has entries installs (and returns)
   * the object of the last item the purge loop visited, not the object passed in.
   */
  lemma StoreAsWrittenKeepsLoopObject(pools: Pools, name: string, key: string, obj: Option<Obj>, persistent: bool,
                                      creation: Option<() -> Obj>, order: seq<string>)
    requires ListsKeys(PoolOf(pools, name), order) && |order| > 0
    ensures var last := PoolOf(pools, name)[order[|order| - 1]].obj;
      StoreAsWritten(pools, name, key, obj, persistent, creation, order).1 == Ok(last)
  {
  }

  /** A concrete case: a pool with one persistent object "a"; storing object 2 under "b" stores object 1. */
  lemma StoreAsWrittenCounterexample()
    ensures var pools := map["db" := map["a" := Entry(true, Scalar(1))]];
      && StoreAsWritten(pools, "db", "b", Some(Scalar(2)), false, None, ["a"]).1 == Ok(Scalar(1))
      && Store(pools, "db", "b", Some(Scalar(2)), false, None).1 == Ok(Scalar(2))
  {
  }
}

=== FILE: wrappers.dfy ===
/** Option and Result, the failure-compatible wrappers the rest of the model returns. */
module Wrappers {

  datatype Option<+T> = None | Some(value: T) {
    predicate IsFailure() { None? }

    function PropagateFailure<U>(): Option<U>
      requires None?
    {
      None
    }

    function Extract(): T
      requires Some?
    {
      value
    }
  }

  datatype Result<+T, +E> = Ok(value: T) | Err(error: E) {
    predicate IsFailure() { Err? }

    function PropagateFailure<U>(): Result<U, E>
      requires Err?
    {
      Err(error)
    }

    function Extract(): T
      requires Ok?
    {
      value
    }
  }
}

/** The ways an operation of the manager can fail, in place of the exceptions it raises. */
module Errors {

  datatype Error =
    | UnknownModule(name: string)     // the module registry has no class under this name
    | BadNameType                     // getResults was given a name of an unsupported type
    | ReportFailed(name: string)      // the module's reportResults callback raised
    | NotCached                       // loadFromCache found neither a memory entry nor a disk file
    | NotInPool                       // getCommonObject on an absent (pool, key)
    | NoCreationFunction              // no object and no creation function to make one
}
